=== FILE: README.md ===
# Session and identity management of the chat app, in Dafny

This project models the part of the chat application that has real rules:
how a user signs up, logs in and out, is looked up and edits a profile on the
server, and how the browser client keeps its session, sends its credential
and refreshes cached data. Everything is a pure function over immutable
values:

- **Client session store** (`AuthSlice`): the `auth` reducer's state
  `{user, token, isAuthenticated, isInitialized, loading}` paired with the
  browser's durable key/value storage (a `map`). The reducers write that
  storage as a side effect, so each one maps the pair to a new pair. Two
  invariants are proved for every reachable state. The authenticated flag
  holds exactly when both user and token are set. While authenticated,
  storage holds the same token and user as memory.
- **User-list reducer** (`UserSlice`): the fetched contact list and the user
  picked for a chat.
- **Request layer** (`ApiSlice`): the base URL, the bearer header, the
  endpoint table (method, path, body) and the cache tags each query provides
  and each mutation invalidates. It also covers how a server reply reaches a
  page after `unwrap()`.
- **Validation and routes** (`Routes`): the signup and login validation
  chains as rule lists, the route table of both routers, and which routes sit
  behind the access guard. A proof shows that the client's endpoint table
  reaches the intended server handler.
- **User collection** (`UserStore`): a `seq` of documents in insertion order.
  A lookup by id or e-mail is the first match. The user schema is a
  parameter (`Schema`): password hashing and comparison are functions, and
  the default picture and bio are strings. A new document is otherwise fixed
  by `AuthController.NewDoc`: offline, no phone, no socket, created and last
  seen at `now`. A token is the injective constructor `Sign(id)`.
- **Account endpoints** (`AuthController`): signup, login, logout and "who
  am I". Signup and logout return the reply together with the new
  collection; login and "who am I" only read it.
- **User endpoints** (`UserController`): the sorted contact list, lookup by
  id, the profile-update merge and the capped, case-insensitive search.
- **Pages** (`SignupPage`, `ContactsPage`, `SettingsPage`): the submit
  handlers' checks, the body they send, and what they do with the answer.
  Each page also has its in-page filter and initial form. The answer is a
  parameter, so a lemma can feed a page the reply the server model produces
  for the body the page sent.

Server replies are `Reply<P>`: either `Failure(status, message, errors)` or
`Success(status, note, payload)`. Store failures outside the model (a failed
write) enter as a boolean `storeOk`. The current time enters as `now`, and
the caller's id as resolved by the access guard enters as `caller`.

Behaviours of the code that the model keeps, and that a reader might not
expect:

- Logout answers 500 when the status update fails.
- A stored session is restored only when the stored token is a non-empty
  string. Both keys merely being present is not enough.
- A profile update keeps the old username, e-mail and picture both when the
  value is undefined and when it is the empty string. Bio and phone take any
  defined value, "" included.
- "Who am I" answers 200 with a `null` user when the caller's document is
  gone.
- The duplicate check reports on the first document found. When one document
  shares the username and another the e-mail, the answer is "Username
  already taken".
- Both routers match paths without regard to letter case, so
  `POST /auth/Login` logs in. A lookup by id keeps the id as written, but an
  id that reads "search" in any mix of cases reaches the search instead.
- No page waits for `isInitialized`, so the model proves no property about
  waiting for it.
- The signup page and the server measure a password differently. The page
  counts UTF-16 code units. The server's length rule counts characters, less
  any U+FE0E or U+FE0F presentation selectors. A password of three emoji is
  six units long, so the page sends it, and the server refuses it as too
  short (`SignupPage.PageMaySendWhatServerRefuses`).

## Model

| member | source | states |
|---|---|---|
| `Common.Trim` | backend/routes/authRoutes.js:16 | the sanitiser's trim: the result is the input with its leading and trailing white space cut off at some offset, it neither starts nor ends with white space, a string without white space is kept, and an all-space string becomes empty |
| `Common.TrimIdempotent` | backend/routes/authRoutes.js:22 | trimming an already trimmed value changes nothing |
| `Common.Lower` | frontend/app/contacts/page.tsx:60-61 | lower-casing keeps the length and lower-cases each character on its own |
| `Common.ContainsIffOccurs` | frontend/app/contacts/page.tsx:60 | `includes` holds exactly when the term occurs at some offset |
| `Common.FirstWhere` | frontend/lib/redux/slices/userSlice.ts:37-39 | `findIndex`: the index found satisfies the test and no earlier one does; none is found exactly when no element passes |
| `Common.Filter` | frontend/app/contacts/page.tsx:59-62 | `filter`: an element is in the result exactly when it is in the input and passes, and the result is no longer than the input |
| `Common.FilterSnoc` | frontend/app/contacts/page.tsx:59-62 | filtering keeps the input order: an appended element is appended to the result exactly when it passes |
| `Common.FilterCount` | backend/controllers/userController.js:11 | a query with a filter returns each passing document as often as it is stored, and no other |
| `Common.StrLeqTransitive` | backend/controllers/userController.js:13 | the ascending string order used by the sort is transitive |
| `Common.StrLeqTotal` | backend/controllers/userController.js:13 | any two usernames are comparable in that order |
| `Common.OrElse` | frontend/app/signup/page.tsx:78 | the page's "message or fallback": a present non-empty message is kept, a missing or empty one gives the fallback |
| `Common.Utf16Length` | frontend/app/signup/page.tsx:53 | a string's `.length`: between its character count and twice that, and equal to the character count when no character lies outside the Basic Multilingual Plane |
| `Common.ValidatorLength` | backend/routes/authRoutes.js:17 | the length the validator's length rule measures: no more than the character count, and equal to it when no presentation selector occurs |
| `Common.Utf16LengthAppend` | frontend/app/signup/page.tsx:53 | the page's length of a concatenation is the sum of the parts' lengths |
| `Common.Utf16LengthSplit` | frontend/app/signup/page.tsx:53 | each character adds its own width wherever it stands: one code unit, or two outside the Basic Multilingual Plane |
| `Common.ValidatorLengthAppend` | backend/routes/authRoutes.js:17 | the validator's length of a concatenation is the sum of the parts' lengths |
| `Common.ValidatorLengthSplit` | backend/routes/authRoutes.js:17 | each character adds one to the validator's length wherever it stands, except a presentation selector, which adds nothing |
| `Json.Spread` | frontend/lib/redux/slices/authSlice.ts:64 | object spread: the keys are the union, every patch key wins, every other base key survives |
| `Json.TextOr` | frontend/app/settings/page.tsx:22-26 | a field's text or "": the text under the key when the object has text there, otherwise "" |
| `AuthSlice.SetCredentials` | frontend/lib/redux/slices/authSlice.ts:34-47 | user and token come from the payload; authenticated, initialised, not loading; storage holds exactly that token and user; other keys untouched; the invariants hold afterwards |
| `AuthSlice.SetLoading` | frontend/lib/redux/slices/authSlice.ts:48-50 | only `loading` changes, and storage is not touched |
| `AuthSlice.Logout` | frontend/lib/redux/slices/authSlice.ts:51-61 | user and token cleared, not authenticated, initialised, not loading; both storage keys removed and no other touched |
| `AuthSlice.UpdateUser` | frontend/lib/redux/slices/authSlice.ts:62-67 | without a user nothing changes; otherwise the payload is spread over the user and only the stored user is rewritten; token and flags unchanged |
| `AuthSlice.RestoreAuth` | frontend/lib/redux/slices/authSlice.ts:68-78 | always initialised and never writes storage; adopts the stored session exactly when a non-empty token and a user are stored, otherwise user, token and flag are unchanged |
| `AuthSlice.Reduce` | frontend/lib/redux/slices/authSlice.ts:33-78 | every reducer preserves the two session invariants and never un-initialises |
| `AuthSlice.InitialIsValid` | frontend/lib/redux/slices/authSlice.ts:22-28 | the initial state satisfies both invariants whatever storage holds, and starts uninitialised and signed out |
| `AuthSlice.ReplayKeepsValid` | frontend/lib/redux/slices/authSlice.ts:33-78 | any sequence of reducers applied to a valid state leaves a valid state |
| `AuthSlice.ReachableIsValid` | frontend/lib/redux/slices/authSlice.ts:22-78 | every state reachable from the initial state satisfies both invariants |
| `AuthSlice.InitializedIsSticky` | frontend/lib/redux/slices/authSlice.ts:33-78 | once initialised, no sequence of reducers makes the store uninitialised |
| `AuthSlice.RestoreIdempotent` | frontend/lib/redux/slices/authSlice.ts:68-78 | restoring twice equals restoring once, and storage is unchanged |
| `AuthSlice.RestoreWithNothingStored` | frontend/lib/redux/slices/authSlice.ts:68-78 | with no stored token, restore leaves the visitor signed out but initialised |
| `AuthSlice.EmptyTokenIsNotRestored` | frontend/lib/redux/slices/authSlice.ts:72 | an empty stored token is not adopted, even beside a stored user |
| `UserSlice.SetAllUsers` | frontend/lib/redux/slices/userSlice.ts:30-32 | the list becomes the payload; selection and loading unchanged |
| `UserSlice.SetSelectedUser` | frontend/lib/redux/slices/userSlice.ts:33-35 | the selection becomes the payload, possibly none; nothing else changes |
| `UserSlice.SetLoading` | frontend/lib/redux/slices/userSlice.ts:44-46 | only `loading` changes |
| `UserSlice.UpdateUserInList` | frontend/lib/redux/slices/userSlice.ts:36-43 | the length is kept; the first entry with the payload's id becomes the payload and every other entry is unchanged |
| `UserSlice.NoMatchNoChange` | frontend/lib/redux/slices/userSlice.ts:37-42 | without an entry carrying the payload's id the state is unchanged |
| `UserSlice.AtMostOneReplaced` | frontend/lib/redux/slices/userSlice.ts:36-43 | of any two positions, at least one is unchanged |
| `UserSlice.UpdateIdempotent` | frontend/lib/redux/slices/userSlice.ts:36-43 | applying the same update twice equals applying it once |
| `ApiSlice.BaseUrl` | frontend/lib/redux/api/apiSlice.ts:4 | the configured URL when it is set and non-empty, else `http://localhost:5000/api` |
| `ApiSlice.PrepareHeaders` | frontend/lib/redux/api/apiSlice.ts:10-16 | a non-empty token sets `authorization` to `Bearer ` plus the token; no or an empty token leaves the headers as they were; no other header changes |
| `ApiSlice.BearerRoundTrip` | frontend/lib/redux/api/apiSlice.ts:10-16 | the token read back from the header is the session token |
| `ApiSlice.NoTokenNoCredential` | frontend/lib/redux/api/apiSlice.ts:10-16 | without a usable token no bearer credential is sent |
| `ApiSlice.MethodOf` | frontend/lib/redux/api/apiSlice.ts:21-69 | the queries are GET; only the profile update is PUT, the other mutations are POST |
| `ApiSlice.PathOf` | frontend/lib/redux/api/apiSlice.ts:55-59 | the search path is `/users/search?q=` followed by the raw term, a lookup path is `/users/` followed by the raw id, and no other path has a query string |
| `ApiSlice.Provides` | frontend/lib/redux/api/apiSlice.ts:44-61 | mutations provide nothing; only `getMe` provides Auth; each query provides one tag |
| `ApiSlice.Invalidates` | frontend/lib/redux/api/apiSlice.ts:21-69 | queries invalidate nothing; every mutation invalidates Auth; only the profile update invalidates User |
| `ApiSlice.AuthMutationsInvalidateAuth` | frontend/lib/redux/api/apiSlice.ts:21-43 | signup, login and logout each invalidate exactly Auth |
| `ApiSlice.AuthMutationStalesOnlyMe` | frontend/lib/redux/api/apiSlice.ts:18-69 | an auth mutation marks a query stale exactly when it is `getMe` |
| `ApiSlice.ProfileUpdateStalesEveryQuery` | frontend/lib/redux/api/apiSlice.ts:62-69 | the profile update invalidates exactly User and Auth and marks every query stale |
| `ApiSlice.BuildRequest` | frontend/lib/redux/api/apiSlice.ts:8-16 | the request uses the endpoint's method, its URL is the base followed by the endpoint's path, a body goes exactly with signup, login and profile update, and the credential sent is the session token, exactly when it is non-empty |
| `ApiSlice.Unwrap` | frontend/app/signup/page.tsx:59-79 | a page receives a success flagged `success` with its payload, and every failure as a rejection carrying the server's message |
| `Routes.Report` | backend/controllers/authController.js:13-19 | the error list has one field/message entry per failing rule, in order |
| `Routes.MessagesDistinct` | backend/routes/authRoutes.js:18-37 | no two rules share a message, so the message names the rule |
| `Routes.UsernameViolations` | backend/routes/authRoutes.js:15-20 | the length rule fails exactly when the character count (presentation selectors not counted) is outside 3..30; the pattern rule fails exactly when a character is not a letter, digit or underscore (or the value is empty); both may fail, length first |
| `Routes.EmailViolations` | backend/routes/authRoutes.js:21-25 | the format rule fails exactly when the address is not an e-mail |
| `Routes.PasswordViolations` | backend/routes/authRoutes.js:26-28 | the password length rule fails exactly when the raw password counts fewer than 6 characters (presentation selectors not counted) |
| `Routes.InOrderPairwise` | backend/routes/authRoutes.js:14-38 | the rule order used by the lists: ranks rising step by step is the same as rising between any two positions, so no rule repeats |
| `Routes.OrderedConcat` | backend/routes/authRoutes.js:14-38 | chains run one after another: two ordered lists, the first ranked wholly below the second, join into an ordered list |
| `Routes.SignupRuleViolations` | backend/routes/authRoutes.js:14-29 | each signup rule is reported exactly when it fails, at most once and in declaration order; the login-only rule never is |
| `Routes.SignupViolations` | backend/routes/authRoutes.js:14-29 | on the trimmed username and e-mail and the raw password, the list is empty exactly when the body is acceptable, names each failing rule, and lists them once each in declaration order |
| `Routes.SanitizeSignup` | backend/routes/authRoutes.js:16-25 | after validation the username and e-mail are trimmed and the e-mail normalised; the password is untouched |
| `Routes.LoginRuleViolations` | backend/routes/authRoutes.js:31-38 | on an already trimmed e-mail: the e-mail rule fails exactly when the address is not an e-mail, the password rule exactly when the password is empty, e-mail first |
| `Routes.LoginViolations` | backend/routes/authRoutes.js:31-38 | empty exactly when the trimmed e-mail is valid and the password non-empty; reports exactly the failing rules, e-mail before password |
| `Routes.SanitizeLogin` | backend/routes/authRoutes.js:33-36 | the e-mail trimmed and normalised; the password untouched |
| `Routes.SameEmailRule` | backend/routes/authRoutes.js:21-36 | signup and login judge and normalise the same address identically |
| `Routes.LoginImposesNoLength` | backend/routes/authRoutes.js:26-37 | a short non-empty password passes login validation but fails signup's length rule |
| `Routes.TrimmedUsernameJudgedAlike` | backend/routes/authRoutes.js:15-17 | validating the trimmed username gives the same verdict as validating the raw one |
| `Routes.Resolve` | backend/routes/authRoutes.js:41-44 | a route reached without the guard is signup or login, by POST; signup and login are never guarded; a lookup by id is reached only through the `/users/` prefix in any case, and its id is the rest of the path as written |
| `Routes.ResolveIgnoresCase` | backend/routes/userRoutes.js:10-19 | the routers match paths without regard to letter case: lower-casing a path reaches the same route with the same guard, and a lookup the same id lower-cased |
| `Routes.PathPart` | frontend/lib/redux/api/apiSlice.ts:59 | the path of a URL is a prefix of it without `?`, and a URL without `?` is its own path |
| `Routes.PathPartOfQuery` | frontend/lib/redux/api/apiSlice.ts:59 | the query string after the first `?` is not part of the path |
| `Routes.ClientServerAgree` | backend/routes/userRoutes.js:13-19 | every client endpoint reaches its own handler when a user id is one plain segment other than "search" in any mix of cases, and the guard runs exactly for the endpoints other than signup and login |
| `Routes.FixedRouteAgrees` | backend/routes/authRoutes.js:41-44 | the endpoints with fixed paths reach their handlers |
| `Routes.SearchRouteAgrees` | backend/routes/userRoutes.js:17 | a search reaches the search handler whatever the term |
| `Routes.ByIdRouteAgrees` | backend/routes/userRoutes.js:17-18 | a lookup by a plain id that is not "search" in any mix of cases reaches the lookup handler with that id, letters as written |
| `Routes.IdSearchIsShadowed` | backend/routes/userRoutes.js:17-18 | a lookup of any id that is "search" in some mix of cases (`Search`, `SEARCH`, ...) reaches the search handler, declared first |
| `UserStore.Public` | backend/controllers/authController.js:181 | every field of the document but the password, with the username and e-mail as strings |
| `UserStore.PublicFields` | backend/controllers/authController.js:181 | the public view holds the id under `_id`, the picture, bio, online flag, last-seen and creation times as stored, and a phone exactly when one is set |
| `UserStore.IndexOf` | backend/controllers/userController.js:67 | the position found is the first one holding that id; none is found exactly when no document has it |
| `UserStore.FindById` | backend/controllers/userController.js:37 | the document found is the first one with that id; none exactly when no document has it |
| `UserStore.FreshId` | backend/controllers/authController.js:40-44 | a new document's id differs from every stored id |
| `UserStore.FoundIsOnly` | backend/controllers/userController.js:67 | with unique ids, a lookup by id finds the one document carrying it |
| `AuthController.NewDoc` | backend/controllers/authController.js:40-44 | the new document has the given id, username and e-mail, only the hash of the password, the schema's default picture and bio, no phone or socket, is offline, and is created and last seen at `now` |
| `AuthController.SignupPayload` | backend/controllers/authController.js:53-60 | the signup user object has exactly id, username, e-mail, picture, bio and creation time, and no password |
| `AuthController.LoginPayload` | backend/controllers/authController.js:124-133 | the login user object adds online flag and last-seen time (and the phone when set), and has no password |
| `AuthController.SignupPayloadIsPublic` | backend/controllers/authController.js:53-60 | every field of the signup user object but `id` is the stored document's own public value, and `id` is its `_id` |
| `AuthController.LoginPayloadIsPublic` | backend/controllers/authController.js:124-133 | every field of the login user object but `id` is the stored document's own public value, and `id` is its `_id` |
| `AuthController.Register` | backend/controllers/authController.js:25-76 | a clash answers 400 and names the e-mail exactly when the first clashing document has it; success is 201 exactly when nothing clashes and the write succeeds, appends one document, the new document for the body with a fresh id (schema defaults, hashed password, timestamps at `now`), and returns `Sign(id)` with its payload; failures leave the collection; unique ids and names are preserved |
| `AuthController.AppendKeepsUnique` | backend/controllers/authController.js:40-44 | appending a non-clashing document with a fresh id keeps ids, usernames and e-mails unique |
| `AuthController.Signup` | backend/controllers/authController.js:10-77 | any failing rule answers 400 "Validation failed" with the whole list and leaves the collection; otherwise the sanitised body is registered; a success implies the body was acceptable |
| `AuthController.InvalidSignupIgnoresStore` | backend/controllers/authController.js:13-20 | an invalid signup gets the same answer whatever the collection holds |
| `AuthController.UsernameClashShadowsEmail` | backend/controllers/authController.js:25-37 | when the first clash shares only the username, the answer is "Username already taken" even though a later document has the e-mail |
| `AuthController.Authenticate` | backend/controllers/authController.js:96-135 | every failure is the same 401 "Invalid email or password"; an unknown e-mail fails; with a document found, success is 200 exactly when the password matches its hash, with that document's token and payload |
| `AuthController.Login` | backend/controllers/authController.js:84-144 | failing rules answer 400 with the list; otherwise the sanitised body is authenticated; a success implies a valid e-mail and a non-empty password |
| `AuthController.UnknownEmailLooksLikeWrongPassword` | backend/controllers/authController.js:101-116 | an unknown e-mail and a wrong password produce identical answers |
| `AuthController.RegisteredCanLogin` | backend/controllers/authController.js:99-135 | after a registration, logging in with the matching password succeeds with the same token |
| `AuthController.SignupThenLogin` | backend/controllers/authController.js:40-135 | a successful signup followed by a login with the same e-mail and password succeeds with a token for the same id |
| `AuthController.Logout` | backend/controllers/authController.js:151-172 | success (200) exactly when the update succeeds, else 500 with the collection unchanged; only the caller's document goes offline with last-seen `now` and no socket, the rest is unchanged |
| `AuthController.GetMe` | backend/controllers/authController.js:179-186 | always 200; the user is the caller's password-free document, or `null` exactly when no document has the caller's id |
| `UserController.PublicAll` | backend/controllers/userController.js:11-12 | each listed document in order, without its password |
| `UserController.Listed` | backend/controllers/userController.js:15-19 | 200, with `count` equal to the number of users, each the password-free document |
| `UserController.Insert` | backend/controllers/userController.js:13 | inserting into a list sorted by username keeps it sorted and adds exactly that document |
| `UserController.SortByName` | backend/controllers/userController.js:13 | a permutation of the input, sorted ascending by username |
| `UserController.Contacts` | backend/controllers/userController.js:11-13 | sorted by username; a document appears exactly when it is stored and is not the caller's, as often as it is stored |
| `UserController.GetAllUsers` | backend/controllers/userController.js:8-28 | 200 with `count` equal to the list length, listing the password-free contacts in order |
| `UserController.ContactsAreEveryoneElse` | backend/controllers/userController.js:11 | with unique ids and the caller present, the list has one entry fewer than the collection |
| `UserController.GetUserById` | backend/controllers/userController.js:35-58 | a malformed id answers 500 "Server error"; 404 "User not found" exactly when no document has the id; otherwise 200 with the first document carrying the id, without password |
| `UserController.Keep` | backend/controllers/userController.js:77 | a given non-empty value is taken; a missing or empty one keeps the current value |
| `UserController.Merge` | backend/controllers/userController.js:76-86 | id, timestamps, online flag and socket unchanged; username, e-mail and picture take a given non-empty value and otherwise stay; bio and phone take any defined value and otherwise stay; a non-empty password is stored as its hash, otherwise the old hash stays |
| `UserController.NoChangesKeepsDoc` | backend/controllers/userController.js:76-86 | an empty body changes nothing |
| `UserController.MergeIdempotent` | backend/controllers/userController.js:76-86 | applying the same body twice equals applying it once |
| `UserController.ProfilePayload` | backend/controllers/userController.js:93-100 | exactly id, username, e-mail, picture, bio and the phone when set; no password |
| `UserController.ProfilePayloadIsPublic` | backend/controllers/userController.js:93-100 | every field of the answer but `id` is the saved document's own public value, and `id` is its `_id` |
| `UserController.Save` | backend/controllers/userController.js:88 | the write succeeds exactly when the store works and no other document holds the new username or e-mail; it replaces that position only and keeps ids and names unique |
| `UserController.UpdateProfile` | backend/controllers/userController.js:65-110 | 404 when the caller is gone; otherwise success (200, the merged profile) exactly when the save succeeds, replacing only the caller's document, and any other failure is 500 "Server error" with the collection unchanged; uniqueness is preserved |
| `UserController.UnchangedProfileAccepted` | backend/controllers/userController.js:65-101 | re-sending an empty update for an existing user succeeds and leaves the collection unchanged |
| `UserController.Hits` | backend/controllers/userController.js:128-138 | a document is a hit exactly when it is stored, is not the caller's, and matches on username or e-mail ignoring case |
| `UserController.HitsSnoc` | backend/controllers/userController.js:128-138 | hits follow store order: a document added at the end is appended to the hits exactly when it is another user's and matches |
| `UserController.SearchUsers` | backend/controllers/userController.js:117-155 | a missing or empty term answers 400 "Search term is required"; otherwise 200 with the first min(20, hits) hits in order, password-free, and `count` their number |
| `UserController.SearchIsComplete` | backend/controllers/userController.js:128-146 | with at most twenty hits, every matching other user is listed |
| `UserController.SearchIgnoresCase` | backend/controllers/userController.js:133-134 | lower-casing the term gives the same answer |
| `SignupPage.Redirect` | frontend/app/signup/page.tsx:29-33 | an authenticated visitor is sent to `/chat`, nobody else is sent anywhere |
| `SignupPage.FormError` | frontend/app/signup/page.tsx:47-56 | a mismatch is reported first, then a password shorter than 6 UTF-16 code units; no error exactly when both checks pass |
| `SignupPage.HandleSubmit` | frontend/app/signup/page.tsx:43-80 | a failed check shows its message and sends nothing; otherwise only username, e-mail and password are sent; success stores the session and opens `/contacts`; any other answer leaves the session; a rejection shows the server's message or the fallback, and an answer not flagged as a success leaves the error line empty |
| `SignupPage.SignupEndsInChat` | frontend/app/signup/page.tsx:29-33 | after a successful signup the page asks for `/contacts`, and the now authenticated session is redirected to `/chat` |
| `SignupPage.PageAgreesWithServerOnLength` | frontend/app/signup/page.tsx:53-56 | a password the page calls short fails the server's length rule; a sent password made of Basic Multilingual Plane characters other than presentation selectors passes it |
| `SignupPage.PageMaySendWhatServerRefuses` | frontend/app/signup/page.tsx:53-63 | a password of three emoji passes the page's check and is sent, and the server's length rule refuses it |
| `ContactsPage.UsersQuery` | frontend/app/contacts/page.tsx:29-31 | the users query is skipped, giving no data, without a session |
| `ContactsPage.FilterUsers` | frontend/app/contacts/page.tsx:59-62 | no data gives the empty list; a fetched user is kept exactly when the lower-cased query occurs in its lower-cased username or e-mail |
| `ContactsPage.FilterKeepsOrder` | frontend/app/contacts/page.tsx:59-62 | the filter keeps the fetched order |
| `ContactsPage.EmptyQueryShowsAll` | frontend/app/contacts/page.tsx:59-62 | an empty query shows the whole list |
| `ContactsPage.FilterMatchesServerSearch` | frontend/app/contacts/page.tsx:59-62 | a user's public view passes the page filter exactly when the document matches the server search |
| `ContactsPage.Render` | frontend/app/contacts/page.tsx:55-62 | nothing is rendered exactly when there is no session; otherwise the filtered list |
| `ContactsPage.HandleUserClick` | frontend/app/contacts/page.tsx:50-53 | the clicked user becomes the selection and the chat opens |
| `ContactsPage.HandleLogout` | frontend/app/contacts/page.tsx:39-48 | whatever the server answers, the store's own logout runs (session and both storage keys cleared, initialised, not loading) and `/login` opens; an error is logged exactly when the call is rejected |
| `ContactsPage.LogoutIgnoresServer` | frontend/app/contacts/page.tsx:39-48 | any two server answers leave the same session and open the same page |
| `SettingsPage.InitialForm` | frontend/app/settings/page.tsx:21-27 | each of the five fields is the session user's text under that key, or "" when there is no user or no text there |
| `SettingsPage.Payload` | frontend/app/settings/page.tsx:49 | all five fields are always sent, and never a password |
| `SettingsPage.HandleSubmit` | frontend/app/settings/page.tsx:44-61 | success spreads the returned user over the session and shows the success banner; otherwise the session is unchanged, and a rejection shows the server's message or the fallback |
| `SettingsPage.UntouchedFormIsNoOp` | frontend/app/settings/page.tsx:21-49 | saving the untouched form of a user with a phone changes nothing on the server |
| `SettingsPage.UntouchedFormSetsEmptyPhone` | frontend/app/settings/page.tsx:25 | saving the untouched form of a user without a phone stores an empty phone |
| `SettingsPage.LoggedInUntouchedFormIsNoOp` | frontend/app/settings/page.tsx:21-49 | after a login, saving the untouched form of a user with a phone changes nothing on the server |
| `SettingsPage.SignedUpUntouchedFormSetsEmptyPhone` | frontend/app/settings/page.tsx:21-49 | after a signup the session user has no phone, so saving the untouched form stores an empty phone |
| `SettingsPage.ClearedFieldsDiffer` | backend/controllers/userController.js:79-81 | a cleared picture keeps the old one, while a cleared bio empties it |
| `SettingsPage.SavedProfileReachesSession` | frontend/app/settings/page.tsx:51-52 | after an accepted save every field of the answer lands in the session user: the caller's id, the bio and phone as typed, and the typed username, e-mail and picture when not empty |

## Left out

- The access guard (`protect`), token verification and expiry are not part of this model. The caller's id is a parameter, and a token is the injective `Sign(id)`.
- The user model (hashing, `comparePassword`, defaults, lower-casing, the unique indexes) is not part of this model. Hashing, matching and defaults are parameters. The unique indexes appear only as the `Taken` refusal of a profile save.
- `Routes.EmailRules` stands for the validator library's `isEmail` and `normalizeEmail`, which are taken as given.
- UserController.Hits: the search term is used by the server as an unescaped, case-insensitive regular expression. The model matches it as a literal substring under ASCII case folding, so regex metacharacters and Unicode case folding are not modelled.
- UserController.SortByName: the database sorts by its own string collation and promises no order among equal usernames. The model sorts by character code and keeps ties in insertion order.
- Routes.Resolve: its own contract states only which routes are guarded and where a lookup id comes from. The full route table is stated through `Routes.ClientServerAgree`, `Routes.ResolveIgnoresCase` and the per-route lemmas. Paths are case-folded for ASCII letters only. Whether Express's matching also folds a non-ASCII letter onto an ASCII one (U+017F onto `s`, U+212A onto `k`) depends on the flags of its regular expressions, and is not modelled.
- Common.Lower: lower-cases ASCII letters only. JavaScript's `toLowerCase` folds all of Unicode, which needs tables outside this model.
- ContactsPage.FilterMatchesServerSearch: holds for the model's literal, ASCII-folded matching on both sides. The server treats the term as a regular expression (so `a.c` matches `abc` there but not on the page) and both sides fold all of Unicode.
- SignupPage.FormError: a string is a sequence of Unicode characters here, so a lone surrogate, which the page's string can hold, is not representable.
- SignupPage.PageAgreesWithServerOnLength: promises that a sent password passes the server's length rule only for passwords of Basic Multilingual Plane characters without presentation selectors. Other passwords can be sent and refused (`SignupPage.PageMaySendWhatServerRefuses`).
- AuthSlice.ReachableIsValid: assumes storage holds only what this reducer writes. Storage holds text in the browser; a stored user of `null`, text that is not JSON (on which parsing throws) and a token written by other code are not representable.
- Read failures of the store (the 500 answers of login, "who am I", the contact list and the search) are not modelled. Only write failures enter, through `storeOk`.
- The "Invalid user data" branch of signup is not modelled, because creation either yields a document or throws.
- A malformed id in a lookup is modelled only as `None` answering 500. The cast error itself is not modelled.
- URL encoding, trailing slashes and the framework's query parsing are not modelled. A search term is one string, and a lookup id is one path segment.
- JSON serialisation of the stored user is abstracted: storage holds the object itself.
- A `null` bio or phone in an update body is not modelled. An undefined value is `None` and a given one is a string; the server would store `null` for either.
- Timestamps are the parameter `now`. Date formatting is not modelled.
- Concurrency is not modelled: the duplicate-signup race and the logout-versus-update race.
- RTK Query's caching and refetch timing are not modelled beyond the provides/invalidates table. Whether failed mutations invalidate is library behaviour.
- Navigation and redirects are returned as route strings. Rendering, loading spinners and the chat UI over fixtures are not modelled.
- The login page, the chat and root route guards, and the new-chat sidebar filter are not modelled. They repeat pieces modelled here.
- Server start-up, the database connection and `generateToken`'s signing are I/O or library wrappers.

=== FILE: api_slice.dfy ===
/** The client request layer: the base URL, the bearer header attached to
    every call, the endpoint table (method, path, body) and the cache tags
    each query provides and each mutation invalidates. */
module ApiSlice {
  import opened Common
  import opened Http

  const DefaultBaseUrl := "http://localhost:5000/api"

  /** The configured API URL when one is set and non-empty, else the default. */
  function BaseUrl(configured: Option<string>): (r: string)
    ensures configured.Some? && Truthy(configured.value) ==> r == configured.value
    ensures configured.None? || !Truthy(configured.value) ==> r == DefaultBaseUrl
  {
    OrElse(configured, DefaultBaseUrl)
  }

  // ---------------------------------------------------------------------------
  // Headers

  type Headers = map<string, string>

  const AuthorizationHeader := "authorization"
  const BearerPrefix := "Bearer "

  /** Attach `authorization: Bearer <token>` when the session holds a non-empty token. */
  function PrepareHeaders(token: Option<string>, h: Headers): (r: Headers)
    ensures token.Some? && Truthy(token.value) ==>
      AuthorizationHeader in r && r[AuthorizationHeader] == BearerPrefix + token.value
    ensures token.None? || !Truthy(token.value) ==> r == h
    ensures forall k :: k in h && k != AuthorizationHeader ==> k in r && r[k] == h[k]
    ensures r.Keys <= h.Keys + {AuthorizationHeader}
  {
    if token.Some? && Truthy(token.value) then h[AuthorizationHeader := BearerPrefix + token.value]
    else h
  }

  /** The receiving side's reading of the header: the text after `Bearer `. */
  function BearerToken(h: Headers): Option<string> {
    if AuthorizationHeader in h && IsPrefix(BearerPrefix, h[AuthorizationHeader])
       && |h[AuthorizationHeader]| > |BearerPrefix|
    then Some(h[AuthorizationHeader][|BearerPrefix|..])
    else None
  }

  /** A non-empty session token reaches the server unchanged. */
  lemma BearerRoundTrip(token: string, h: Headers)
    requires Truthy(token)
    ensures BearerToken(PrepareHeaders(Some(token), h)) == Some(token)
  {
    var v := BearerPrefix + token;
    assert v[..|BearerPrefix|] == BearerPrefix;
    assert v[|BearerPrefix|..] == token;
  }

  /** Without a usable token, no bearer credential is sent. */
  lemma NoTokenNoCredential(token: Option<string>, h: Headers)
    requires token.None? || !Truthy(token.value)
    requires AuthorizationHeader !in h
    ensures BearerToken(PrepareHeaders(token, h)).None?
  {
  }

  // ---------------------------------------------------------------------------
  // Endpoint table

  datatype Method = GET | POST | PUT

  datatype Tag = UserTag | AuthTag

  datatype Endpoint =
    | Signup
    | Login
    | Logout
    | GetMe
    | GetAllUsers
    | GetUserById(id: string)
    | SearchUsers(term: string)
    | UpdateProfile
  {
    predicate IsMutation() {
      Signup? || Login? || Logout? || UpdateProfile?
    }

    predicate IsAuthMutation() {
      Signup? || Login? || Logout?
    }
  }

  const SearchPrefix := "/users/search?q="

  function MethodOf(e: Endpoint): (r: Method)
    ensures r == GET <==> !e.IsMutation()
    ensures r == PUT <==> e.UpdateProfile?
  {
    match e
    case Signup => POST
    case Login => POST
    case Logout => POST
    case UpdateProfile => PUT
    case _ => GET
  }

  /** The path below the base URL; the search term and the id are pasted in
      verbatim, without URL encoding. */
  function PathOf(e: Endpoint): (r: string)
    ensures e.SearchUsers? ==> r == "/users/search?q=" + e.term
    ensures e.GetUserById? ==> r == "/users/" + e.id
    ensures !(e.SearchUsers? || e.GetUserById?) ==> '?' !in r
  {
    match e
    case Signup => "/auth/signup"
    case Login => "/auth/login"
    case Logout => "/auth/logout"
    case GetMe => "/auth/me"
    case GetAllUsers => "/users"
    case GetUserById(id) => "/users/" + id
    case SearchUsers(t) => SearchPrefix + t
    case UpdateProfile => "/users/profile"
  }

  /** Signup, login and profile update send the caller's data as the body. */
  predicate CarriesBody(e: Endpoint) {
    e.Signup? || e.Login? || e.UpdateProfile?
  }

  function Provides(e: Endpoint): (r: set<Tag>)
    ensures e.IsMutation() <==> r == {}
    ensures AuthTag in r <==> e.GetMe?
    ensures |r| <= 1
  {
    match e
    case GetMe => {AuthTag}
    case GetAllUsers => {UserTag}
    case GetUserById(_) => {UserTag}
    case SearchUsers(_) => {UserTag}
    case _ => {}
  }

  function Invalidates(e: Endpoint): (r: set<Tag>)
    ensures !e.IsMutation() <==> r == {}
    ensures e.IsMutation() ==> AuthTag in r
    ensures UserTag in r <==> e.UpdateProfile?
  {
    match e
    case Signup => {AuthTag}
    case Login => {AuthTag}
    case Logout => {AuthTag}
    case UpdateProfile => {UserTag, AuthTag}
    case _ => {}
  }

  /** A successful mutation `m` marks query `q`'s cached result for refetching. */
  predicate Stale(m: Endpoint, q: Endpoint) {
    m.IsMutation() && !q.IsMutation() && Invalidates(m) * Provides(q) != {}
  }

  /** Signup, login and logout invalidate exactly the Auth tag ... */
  lemma AuthMutationsInvalidateAuth(m: Endpoint)
    requires m.IsAuthMutation()
    ensures Invalidates(m) == {AuthTag}
  {
  }

  /** ... so the only query they mark stale is `getMe`. */
  lemma {:induction false} AuthMutationStalesOnlyMe(m: Endpoint, q: Endpoint)
    requires m.IsAuthMutation() && !q.IsMutation()
    ensures Stale(m, q) <==> q.GetMe?
  {
    AuthMutationsInvalidateAuth(m);
    if q.GetMe? {
      assert AuthTag in Invalidates(m) * Provides(q);
    }
  }

  /** A profile update invalidates both tags and so marks every query stale. */
  lemma {:induction false} ProfileUpdateStalesEveryQuery(q: Endpoint)
    requires !q.IsMutation()
    ensures Invalidates(UpdateProfile) == {UserTag, AuthTag}
    ensures Stale(UpdateProfile, q)
  {
    var t :| t in Provides(q);
    assert t in Invalidates(UpdateProfile) * Provides(q);
  }

  datatype Request = Request(verb: Method, url: string, headers: Headers, hasBody: bool)

  /** The request an endpoint call sends, given the base URL and the session token. */
  function BuildRequest(e: Endpoint, base: string, token: Option<string>): (r: Request)
    ensures r.verb == MethodOf(e) && r.hasBody == CarriesBody(e)
    ensures IsPrefix(base, r.url) && r.url[|base|..] == PathOf(e)
    ensures BearerToken(r.headers).Some? <==> token.Some? && Truthy(token.value)
    // The credential sent is the session token itself.
    ensures BearerToken(r.headers) == (if token.Some? && Truthy(token.value) then token else None)
  {
    var url := base + PathOf(e);
    assert url[..|base|] == base && url[|base|..] == PathOf(e);
    var r := Request(MethodOf(e), url, PrepareHeaders(token, map[]), CarriesBody(e));
    if token.Some? && Truthy(token.value) then BearerRoundTrip(token.value, map[]); r else r
  }

  // ---------------------------------------------------------------------------
  // What a page sees

  /** A response body as the page reads it: the `success` flag and the rest. */
  datatype Body<+P> = Body(success: bool, payload: P)

  /** The result of `unwrap()`: the body of a 2xx response, or a rejection
      carrying the body's `message` when there is one. */
  datatype Unwrapped<+P> = Fulfilled(body: Body<P>) | Rejected(message: Option<string>)

  /** How a server reply reaches the page: every success is flagged
      `success: true`, every failure is thrown with its message. */
  function Unwrap<P>(r: Reply<P>): (u: Unwrapped<P>)
    ensures u.Fulfilled? <==> r.Success?
    ensures u.Fulfilled? ==> u.body.success && u.body.payload == r.payload
    ensures u.Rejected? ==> u.message == Some(r.message)
  {
    match r
    case Success(_, _, p) => Fulfilled(Body(true, p))
    case Failure(_, m, _) => Rejected(Some(m))
  }
}

=== FILE: auth_controller.dfy ===
/** The account endpoints: signup, login, logout and "who am I", as functions
    from the user store and the (already validated-by-route) request to the
    response and the new store. The caller of logout and "who am I" is the
    id the access guard resolved. */
module AuthController {
  import opened Common
  import opened Json
  import opened Http
  import opened UserStore
  import opened Routes

  /** The body of a successful signup or login: the user and a token for it. */
  datatype Session = Session(user: Obj, token: Token)

  /** A response together with the store it leaves behind. */
  datatype Outcome<+P> = Outcome(reply: Reply<P>, store: Store)

  const ValidationFailed := "Validation failed"
  const EmailTaken := "Email already registered"
  const UsernameTaken := "Username already taken"
  const BadCredentials := "Invalid email or password"

  /** The duplicate lookup: a document sharing the e-mail or the username. */
  predicate Clashes(d: UserDoc, username: string, email: string) {
    d.email == email || d.username == username
  }

  predicate Free(store: Store, username: string, email: string) {
    forall i :: 0 <= i < |store| ==> !Clashes(store[i], username, email)
  }

  /** The document created for a sanitised signup body. Online flag and
      last-seen time take the values assumed for the model's defaults. */
  function NewDoc(schema: Schema, id: Id, b: SignupBody, now: Time): (d: UserDoc)
    ensures d.id == id && d.username == b.username && d.email == b.email
    // Only the hash of the password is kept.
    ensures d.password == schema.hash(b.password)
    ensures d.profilePic == schema.defaultProfilePic && d.bio == schema.defaultBio && d.phone.None?
    ensures !d.isOnline && d.socketId.None? && d.createdAt == now && d.lastSeen == now
  {
    UserDoc(id, b.username, b.email, schema.hash(b.password), schema.defaultProfilePic,
            schema.defaultBio, None, false, now, None, now)
  }

  function SignupPayload(d: UserDoc): (o: Obj)
    ensures o.Keys == {"id", "username", "email", "profilePic", "bio", "createdAt"}
    ensures o["id"] == JNum(d.id) && o["username"] == JStr(d.username) && o["email"] == JStr(d.email)
    ensures "password" !in o
  {
    map["id" := JNum(d.id), "username" := JStr(d.username), "email" := JStr(d.email),
        "profilePic" := JStr(d.profilePic), "bio" := JStr(d.bio), "createdAt" := JNum(d.createdAt)]
  }

  function LoginPayload(d: UserDoc): (o: Obj)
    ensures o.Keys == {"id", "username", "email", "profilePic", "bio", "isOnline", "lastSeen"}
                      + (if d.phone.Some? then {"phone"} else {})
    ensures o["id"] == JNum(d.id) && o["username"] == JStr(d.username) && o["email"] == JStr(d.email)
    ensures "password" !in o
  {
    map["id" := JNum(d.id), "username" := JStr(d.username), "email" := JStr(d.email),
        "profilePic" := JStr(d.profilePic), "bio" := JStr(d.bio),
        "isOnline" := JBool(d.isOnline), "lastSeen" := JNum(d.lastSeen)]
    + (match d.phone case Some(p) => map["phone" := JStr(p)] case None => map[])
  }

  /** Apart from `id`, which renames `_id`, every field signup answers with is
      the stored document's own public value. */
  lemma SignupPayloadIsPublic(d: UserDoc)
    ensures forall k :: k in SignupPayload(d) && k != "id" ==>
      k in Public(d) && SignupPayload(d)[k] == Public(d)[k]
    ensures Public(d)["_id"] == SignupPayload(d)["id"]
  {
    PublicFields(d);
  }

  /** Apart from `id`, every field login answers with is the stored document's
      own public value. */
  lemma LoginPayloadIsPublic(d: UserDoc)
    ensures forall k :: k in LoginPayload(d) && k != "id" ==>
      k in Public(d) && LoginPayload(d)[k] == Public(d)[k]
    ensures Public(d)["_id"] == LoginPayload(d)["id"]
  {
    PublicFields(d);
    var o := LoginPayload(d);
    forall k | k in o && k != "id"
      ensures k in Public(d) && o[k] == Public(d)[k]
    {
      if k == "phone" {
        assert d.phone.Some?;
      }
    }
  }

  // ---------------------------------------------------------------------------
  // signup

  /** Position `i` holds the first document clashing with `b`. */
  predicate IsFirstClash(store: Store, b: SignupBody, i: int) {
    && 0 <= i < |store| && Clashes(store[i], b.username, b.email)
    && forall j :: 0 <= j < i ==> !Clashes(store[j], b.username, b.email)
  }

  /** Signup after validation, on the sanitised body: the duplicate check, then
      the insert. */
  function Register(schema: Schema, store: Store, b: SignupBody, now: Time, storeOk: bool)
    : (r: Outcome<Session>)
    // A failure never writes.
    ensures r.reply.Failure? ==> r.store == store
    // Success exactly when nothing clashes and the write goes through.
    ensures r.reply.Success? <==> Free(store, b.username, b.email) && storeOk
    // A clash answers 400; the message names the e-mail exactly when the first
    // clashing document has that e-mail.
    ensures forall i :: IsFirstClash(store, b, i) ==>
      r.reply == Failure(BadRequest, if store[i].email == b.email then EmailTaken else UsernameTaken, [])
    ensures Free(store, b.username, b.email) && !storeOk ==> r.reply.status == ServerError
    // Success appends exactly one document, with a fresh id, and returns its
    // token and payload.
    ensures r.reply.Success? ==>
      && r.reply.status == 201
      && |r.store| == |store| + 1 && r.store[..|store|] == store
      && var d := r.store[|store|];
      && (forall i :: 0 <= i < |store| ==> store[i].id != d.id)
      && d.username == b.username && d.email == b.email && d.password == schema.hash(b.password)
      && d == NewDoc(schema, d.id, b, now)
      && r.reply.payload.token == Sign(d.id)
      && r.reply.payload.user == SignupPayload(d)
    ensures UniqueIds(store) ==> UniqueIds(r.store)
    ensures UniqueNames(store) ==> UniqueNames(r.store)
  {
    match FirstWhere(store, (d: UserDoc) => Clashes(d, b.username, b.email))
    case Some(i) =>
      assert forall k :: IsFirstClash(store, b, k) ==> k == i;
      Outcome(Failure(BadRequest, if store[i].email == b.email then EmailTaken else UsernameTaken, []),
              store)
    case None =>
      if !storeOk then
        Outcome(Failure(ServerError, "Server error during signup", []), store)
      else
        var d := NewDoc(schema, FreshId(store), b, now);
        AppendKeepsUnique(store, d);
        Outcome(Success(201, Some("User registered successfully"), Session(SignupPayload(d), Sign(d.id))),
                store + [d])
  }

  /** Appending a document that clashes with none keeps names and ids unique. */
  lemma {:induction false} AppendKeepsUnique(store: Store, d: UserDoc)
    requires Free(store, d.username, d.email)
    requires forall i :: 0 <= i < |store| ==> store[i].id != d.id
    ensures (store + [d])[..|store|] == store && (store + [d])[|store|] == d
    ensures UniqueIds(store) ==> UniqueIds(store + [d])
    ensures UniqueNames(store) ==> UniqueNames(store + [d])
  {
    var s := store + [d];
    assert forall i :: 0 <= i < |store| ==> s[i] == store[i];
    assert s[..|store|] == store;
  }

  function Signup(schema: Schema, rules: EmailRules, store: Store, body: SignupBody,
                  now: Time, storeOk: bool): (r: Outcome<Session>)
    // Any failing rule: 400 with the whole list, and no store access.
    ensures SignupViolations(rules, body) != [] ==>
      r == Outcome(Failure(BadRequest, ValidationFailed, Report(SignupViolations(rules, body))), store)
    // Otherwise the sanitised body is registered.
    ensures SignupViolations(rules, body) == [] ==>
      r == Register(schema, store, SanitizeSignup(rules, body), now, storeOk)
    ensures r.reply.Success? ==> SignupAcceptable(rules, body)
    ensures UniqueIds(store) ==> UniqueIds(r.store)
    ensures UniqueNames(store) ==> UniqueNames(r.store)
  {
    var vs := SignupViolations(rules, body);
    if vs != [] then
      Outcome(Failure(BadRequest, ValidationFailed, Report(vs)), store)
    else
      Register(schema, store, SanitizeSignup(rules, body), now, storeOk)
  }

  /** Whatever the store holds, an invalid signup gets the same answer. */
  lemma InvalidSignupIgnoresStore(schema: Schema, rules: EmailRules, s1: Store, s2: Store,
                                  body: SignupBody, now: Time, ok1: bool, ok2: bool)
    requires SignupViolations(rules, body) != []
    ensures Signup(schema, rules, s1, body, now, ok1).reply == Signup(schema, rules, s2, body, now, ok2).reply
  {
  }

  /** The duplicate message follows the first document found: when an earlier
      document shares the username and a later one the e-mail, the answer is
      "Username already taken" although the e-mail is registered too. */
  lemma {:induction false} UsernameClashShadowsEmail(schema: Schema, rules: EmailRules, store: Store,
                                                     body: SignupBody, now: Time, ok: bool)
    requires SignupAcceptable(rules, body)
    requires |store| == 2
    requires store[0].username == SanitizeSignup(rules, body).username
    requires store[0].email != SanitizeSignup(rules, body).email
    requires store[1].email == SanitizeSignup(rules, body).email
    ensures Signup(schema, rules, store, body, now, ok).reply == Failure(BadRequest, UsernameTaken, [])
  {
    var b := SanitizeSignup(rules, body);
    assert IsFirstClash(store, b, 0);
  }

  // ---------------------------------------------------------------------------
  // login

  /** Position `i` holds the first document with this e-mail. */
  predicate IsFirstWithEmail(store: Store, email: string, i: int) {
    0 <= i < |store| && store[i].email == email && forall j :: 0 <= j < i ==> store[j].email != email
  }

  /** Login after validation, on the sanitised body: look the e-mail up, then
      compare the password with the stored hash. */
  function Authenticate(schema: Schema, store: Store, b: LoginBody): (r: Reply<Session>)
    // Every credential failure looks the same.
    ensures r.Failure? ==> r == Failure(Unauthorized, BadCredentials, [])
    // No document with that e-mail: failure.
    ensures (forall i :: 0 <= i < |store| ==> store[i].email != b.email) ==> r.Failure?
    // The first document with that e-mail decides: success exactly when the
    // password matches its hash, and then the token names it.
    ensures forall i :: IsFirstWithEmail(store, b.email, i) ==>
      && (r.Success? <==> schema.matches(b.password, store[i].password))
      && (r.Success? ==> r.status == 200 && r.payload.token == Sign(store[i].id)
                         && r.payload.user == LoginPayload(store[i]))
  {
    match FirstWhere(store, (d: UserDoc) => d.email == b.email)
    case None => Failure(Unauthorized, BadCredentials, [])
    case Some(i) =>
      assert forall k :: IsFirstWithEmail(store, b.email, k) ==> k == i;
      if !schema.matches(b.password, store[i].password) then
        Failure(Unauthorized, BadCredentials, [])
      else
        Success(200, Some("Login successful"), Session(LoginPayload(store[i]), Sign(store[i].id)))
  }

  function Login(schema: Schema, rules: EmailRules, store: Store, body: LoginBody): (r: Reply<Session>)
    ensures LoginViolations(rules, body) != [] ==>
      r == Failure(BadRequest, ValidationFailed, Report(LoginViolations(rules, body)))
    ensures LoginViolations(rules, body) == [] ==>
      r == Authenticate(schema, store, SanitizeLogin(rules, body))
    ensures r.Success? ==> rules.isEmail(Trim(body.email)) && body.password != ""
  {
    var vs := LoginViolations(rules, body);
    if vs != [] then
      Failure(BadRequest, ValidationFailed, Report(vs))
    else
      Authenticate(schema, store, SanitizeLogin(rules, body))
  }

  /** An unknown e-mail and a wrong password cannot be told apart. */
  lemma {:induction false} UnknownEmailLooksLikeWrongPassword(schema: Schema,
      s1: Store, b1: LoginBody, s2: Store, b2: LoginBody, i: int)
    requires forall j :: 0 <= j < |s1| ==> s1[j].email != b1.email
    requires IsFirstWithEmail(s2, b2.email, i) && !schema.matches(b2.password, s2[i].password)
    ensures Authenticate(schema, s1, b1) == Authenticate(schema, s2, b2)
                                         == Failure(Unauthorized, BadCredentials, [])
  {
  }

  /** A registered account can log in: the e-mail finds the new document,
      since no earlier one carries it, and the token names its id. */
  lemma {:induction false} RegisteredCanLogin(schema: Schema, rules: EmailRules, store: Store,
      b: SignupBody, now: Time, lb: LoginBody)
    requires Free(store, b.username, b.email)
    requires LoginViolations(rules, lb) == [] && SanitizeLogin(rules, lb).email == b.email
    requires schema.matches(lb.password, schema.hash(b.password))
    ensures var s := Register(schema, store, b, now, true);
      var l := Login(schema, rules, s.store, lb);
      l.Success? && l.payload.token == s.reply.payload.token
  {
    var s := Register(schema, store, b, now, true);
    assert IsFirstWithEmail(s.store, b.email, |store|);
  }

  /** Signing up and then logging in with the same e-mail and password reaches
      the new account: both tokens name the same id. */
  lemma {:induction false} SignupThenLogin(schema: Schema, rules: EmailRules, store: Store,
      body: SignupBody, now: Time)
    requires schema.matches(body.password, schema.hash(body.password))
    requires Signup(schema, rules, store, body, now, true).reply.Success?
    ensures var s := Signup(schema, rules, store, body, now, true);
      var l := Login(schema, rules, s.store, LoginBody(body.email, body.password));
      l.Success? && l.payload.token == s.reply.payload.token
  {
    var b := SanitizeSignup(rules, body);
    var lb := LoginBody(body.email, body.password);
    assert SignupViolations(rules, body) == [];
    assert LoginViolations(rules, lb) == [];
    RegisteredCanLogin(schema, rules, store, b, now, lb);
  }

  // ---------------------------------------------------------------------------
  // logout and "who am I"

  /** `d` after logout: offline, last seen `now`, no socket; nothing else changed. */
  predicate SignedOut(before: UserDoc, after: UserDoc, now: Time) {
    && !after.isOnline && after.lastSeen == now && after.socketId.None?
    && after.(isOnline := before.isOnline, lastSeen := before.lastSeen, socketId := before.socketId) == before
  }

  function Logout(store: Store, caller: Id, now: Time, storeOk: bool): (r: Outcome<()>)
    ensures storeOk <==> r.reply.Success?
    ensures storeOk ==> r.reply.status == 200
    ensures !storeOk ==> r.reply.status == ServerError && r.store == store
    ensures |r.store| == |store|
    ensures forall j :: 0 <= j < |store| ==>
      if storeOk && IsFirstWithId(store, caller, j) then SignedOut(store[j], r.store[j], now)
      else r.store[j] == store[j]
    ensures UniqueIds(store) ==> UniqueIds(r.store)
  {
    if !storeOk then
      Outcome(Failure(ServerError, "Server error during logout", []), store)
    else
      var done := Success(200, Some("Logged out successfully"), ());
      match IndexOf(store, caller)
      case None => Outcome(done, store)
      case Some(i) =>
        Outcome(done, store[i := store[i].(isOnline := false, lastSeen := now, socketId := None)])
  }

  /** The caller's document without its password, or `null` when it is gone. */
  function GetMe(store: Store, caller: Id): (r: Reply<Option<Obj>>)
    ensures r.Success? && r.status == 200
    ensures r.payload.None? <==> forall i :: 0 <= i < |store| ==> store[i].id != caller
    ensures forall i :: IsFirstWithId(store, caller, i) ==> r.payload == Some(Public(store[i]))
  {
    match IndexOf(store, caller)
    case Some(k) =>
      assert forall i :: IsFirstWithId(store, caller, i) ==> i == k;
      Success(200, None, Some(Public(store[k])))
    case None => Success(200, None, None)
  }
}

=== FILE: auth_slice.dfy ===
/** The client session store: the `auth` reducer's state together with the
    browser's durable key/value storage, which the reducer writes as a side
    effect. Each reducer is a pure function from the pair to the pair. */
module AuthSlice {
  import opened Common
  import opened Json

  const TokenKey := "token"
  const UserKey := "user"

  /** A durable-storage entry: the token text as written, or the user object
      whose JSON text was written (serialisation is abstracted, so the entry
      holds the object itself). */
  datatype Stored = Raw(text: string) | Serialized(obj: Obj)

  /** Durable storage, shared with any other code in the same origin. */
  type Storage = map<string, Stored>

  datatype AuthState = AuthState(
    user: Option<Obj>,
    token: Option<string>,
    isAuthenticated: bool,
    isInitialized: bool,
    loading: bool)

  datatype Client = Client(auth: AuthState, storage: Storage)

  const InitialState := AuthState(None, None, false, false, false)

  /** What `getItem("token")` yields, as a token. */
  function StoredToken(st: Storage): Option<string> {
    if TokenKey in st && st[TokenKey].Raw? then Some(st[TokenKey].text) else None
  }

  /** What `JSON.parse(getItem("user"))` yields. */
  function StoredUser(st: Storage): Option<Obj> {
    if UserKey in st && st[UserKey].Serialized? then Some(st[UserKey].obj) else None
  }

  /** The flag agrees with the two fields it summarises. */
  predicate Coherent(a: AuthState) {
    a.isAuthenticated <==> a.user.Some? && a.token.Some?
  }

  /** While authenticated, durable storage holds the same token and user as
      memory. */
  predicate Mirrored(c: Client) {
    c.auth.isAuthenticated ==>
      StoredToken(c.storage) == c.auth.token && StoredUser(c.storage) == c.auth.user
  }

  predicate Valid(c: Client) {
    Coherent(c.auth) && Mirrored(c)
  }

  /** Storage keys other than the session's two are left alone. */
  ghost predicate OthersUnchanged(before: Storage, after: Storage) {
    forall k :: k != TokenKey && k != UserKey ==>
      (k in before <==> k in after) && (k in before ==> before[k] == after[k])
  }

  // ---------------------------------------------------------------------------
  // Reducers

  function SetCredentials(c: Client, user: Obj, token: string): (r: Client)
    ensures r.auth.user == Some(user) && r.auth.token == Some(token)
    ensures r.auth.isAuthenticated && r.auth.isInitialized && !r.auth.loading
    ensures TokenKey in r.storage && r.storage[TokenKey] == Raw(token)
    ensures UserKey in r.storage && r.storage[UserKey] == Serialized(user)
    ensures OthersUnchanged(c.storage, r.storage)
    ensures Valid(r)
  {
    Client(AuthState(Some(user), Some(token), true, true, false),
           c.storage[TokenKey := Raw(token)][UserKey := Serialized(user)])
  }

  function SetLoading(c: Client, on: bool): (r: Client)
    ensures r.auth.loading == on
    ensures r.auth.user == c.auth.user && r.auth.token == c.auth.token
    ensures r.auth.isAuthenticated == c.auth.isAuthenticated
    ensures r.auth.isInitialized == c.auth.isInitialized
    ensures r.storage == c.storage
    ensures Valid(c) ==> Valid(r)
  {
    c.(auth := c.auth.(loading := on))
  }

  function Logout(c: Client): (r: Client)
    ensures r.auth.user.None? && r.auth.token.None?
    ensures !r.auth.isAuthenticated && r.auth.isInitialized && !r.auth.loading
    ensures TokenKey !in r.storage && UserKey !in r.storage
    ensures OthersUnchanged(c.storage, r.storage)
    ensures Valid(r)
  {
    Client(AuthState(None, None, false, true, false), c.storage - {TokenKey, UserKey})
  }

  /** Overlay `patch` on the signed-in user and rewrite only the stored user;
      without a user, nothing happens. */
  function UpdateUser(c: Client, patch: Obj): (r: Client)
    ensures c.auth.user.None? ==> r == c
    ensures c.auth.user.Some? ==> r.auth.user == Some(Spread(c.auth.user.value, patch))
    ensures c.auth.user.Some? ==> r.storage == c.storage[UserKey := Serialized(r.auth.user.value)]
    ensures r.auth.token == c.auth.token && r.auth.loading == c.auth.loading
    ensures r.auth.isAuthenticated == c.auth.isAuthenticated
    ensures r.auth.isInitialized == c.auth.isInitialized
    ensures Valid(c) ==> Valid(r)
  {
    match c.auth.user
    case None => c
    case Some(u) =>
      var merged := Spread(u, patch);
      Client(c.auth.(user := Some(merged)), c.storage[UserKey := Serialized(merged)])
  }

  /** Both keys are present and the token is a non-empty string. */
  predicate Restorable(st: Storage) {
    StoredToken(st).Some? && Truthy(StoredToken(st).value) && StoredUser(st).Some?
  }

  /** Read durable storage once; adopt it only when it holds a whole session. */
  function RestoreAuth(c: Client): (r: Client)
    ensures r.storage == c.storage
    ensures r.auth.isInitialized && r.auth.loading == c.auth.loading
    ensures Restorable(c.storage) ==>
      && r.auth.isAuthenticated
      && r.auth.token == StoredToken(c.storage)
      && r.auth.user == StoredUser(c.storage)
    ensures !Restorable(c.storage) ==>
      && r.auth.user == c.auth.user
      && r.auth.token == c.auth.token
      && r.auth.isAuthenticated == c.auth.isAuthenticated
    ensures Valid(c) ==> Valid(r)
  {
    if Restorable(c.storage) then
      c.(auth := c.auth.(token := StoredToken(c.storage), user := StoredUser(c.storage),
                         isAuthenticated := true, isInitialized := true))
    else
      c.(auth := c.auth.(isInitialized := true))
  }

  // ---------------------------------------------------------------------------
  // Sequences of dispatched actions

  datatype Action =
    | SetCredentialsAction(user: Obj, token: string)
    | SetLoadingAction(on: bool)
    | LogoutAction
    | UpdateUserAction(patch: Obj)
    | RestoreAuthAction

  function Reduce(c: Client, a: Action): (r: Client)
    ensures Valid(c) ==> Valid(r)
    ensures c.auth.isInitialized ==> r.auth.isInitialized
  {
    match a
    case SetCredentialsAction(u, t) => SetCredentials(c, u, t)
    case SetLoadingAction(on) => SetLoading(c, on)
    case LogoutAction => Logout(c)
    case UpdateUserAction(p) => UpdateUser(c, p)
    case RestoreAuthAction => RestoreAuth(c)
  }

  function Replay(c: Client, acts: seq<Action>): Client
    decreases |acts|
  {
    if acts == [] then c else Replay(Reduce(c, acts[0]), acts[1..])
  }

  /** Whatever durable storage holds when the page loads, the store starts valid. */
  lemma InitialIsValid(st: Storage)
    ensures Valid(Client(InitialState, st))
    ensures !InitialState.isInitialized && !InitialState.isAuthenticated
  {
  }

  lemma {:induction false} ReplayKeepsValid(c: Client, acts: seq<Action>)
    requires Valid(c)
    ensures Valid(Replay(c, acts))
    decreases |acts|
  {
    if acts != [] {
      ReplayKeepsValid(Reduce(c, acts[0]), acts[1..]);
    }
  }

  /** From the initial state, every sequence of reducers keeps both invariants:
      the authenticated flag matches user-and-token, and an authenticated
      session is mirrored in durable storage. */
  lemma {:induction false} ReachableIsValid(st: Storage, acts: seq<Action>)
    ensures Valid(Replay(Client(InitialState, st), acts))
  {
    InitialIsValid(st);
    ReplayKeepsValid(Client(InitialState, st), acts);
  }

  /** Once initialised, the store never becomes uninitialised again. */
  lemma {:induction false} InitializedIsSticky(c: Client, acts: seq<Action>)
    requires c.auth.isInitialized
    ensures Replay(c, acts).auth.isInitialized
    decreases |acts|
  {
    if acts != [] {
      InitializedIsSticky(Reduce(c, acts[0]), acts[1..]);
    }
  }

  /** Restoring twice is restoring once, and storage is never written. */
  lemma RestoreIdempotent(c: Client)
    ensures RestoreAuth(RestoreAuth(c)) == RestoreAuth(c)
    ensures RestoreAuth(c).storage == c.storage
  {
  }

  /** With no token stored, restoring from the initial state leaves the user
      signed out but initialised. */
  lemma RestoreWithNothingStored(st: Storage)
    requires TokenKey !in st
    ensures var r := RestoreAuth(Client(InitialState, st));
      !r.auth.isAuthenticated && r.auth.isInitialized && r.auth.user.None? && r.auth.token.None?
  {
  }

  /** An empty stored token is not a session, even with a stored user. */
  lemma EmptyTokenIsNotRestored(c: Client)
    requires StoredToken(c.storage) == Some("")
    ensures RestoreAuth(c).auth.isAuthenticated == c.auth.isAuthenticated
  {
  }
}

=== FILE: common.dfy ===
/** Small vocabulary shared by the client and the server model: optional
    values, JavaScript string truthiness, ASCII case folding, substring
    search, `String.prototype.trim`, first-match search and the byte-wise
    string order a database sort uses. */
module Common {

  /** `null`/`undefined` versus a present value. */
  datatype Option<+T> = None | Some(value: T) {
    function GetOr(default: T): T {
      match this
      case Some(v) => v
      case None => default
    }
  }

  /** JavaScript truthiness of a string: only "" is falsy. */
  predicate Truthy(s: string) {
    s != ""
  }

  /** `value || fallback` where `value` is an optional string. */
  function OrElse(value: Option<string>, fallback: string): (r: string)
    ensures value.Some? && Truthy(value.value) ==> r == value.value
    ensures value.None? || !Truthy(value.value) ==> r == fallback
  {
    if value.Some? && Truthy(value.value) then value.value else fallback
  }

  // ---------------------------------------------------------------------------
  // Case folding and substring search

  function LowerChar(c: char): char {
    if 'A' <= c <= 'Z' then (c as int + 32) as char else c
  }

  /** `toLowerCase()`, restricted to the ASCII letters. */
  function Lower(s: string): (r: string)
    ensures |r| == |s|
    ensures forall i :: 0 <= i < |s| ==> r[i] == LowerChar(s[i])
  {
    seq(|s|, i requires 0 <= i < |s| => LowerChar(s[i]))
  }

  lemma {:induction false} LowerIdempotent(s: string)
    ensures Lower(Lower(s)) == Lower(s)
  {
    assert forall i :: 0 <= i < |s| ==> LowerChar(LowerChar(s[i])) == LowerChar(s[i]);
  }

  /** Case folding works character by character, so it distributes over `+`. */
  lemma LowerAppend(a: string, b: string)
    ensures Lower(a + b) == Lower(a) + Lower(b)
  {
    var l, r := Lower(a + b), Lower(a) + Lower(b);
    forall i | 0 <= i < |l|
      ensures l[i] == r[i]
    {
      if i < |a| {
        assert (a + b)[i] == a[i];
      } else {
        assert (a + b)[i] == b[i - |a|];
      }
    }
  }

  /** A string without capitals is its own lower case. */
  lemma LowerKeepsLowercase(s: string)
    requires forall i :: 0 <= i < |s| ==> !('A' <= s[i] <= 'Z')
    ensures Lower(s) == s
  {
  }

  /** Case folding only changes letters: any other character is where it was. */
  lemma LowerKeepsOthers(s: string, c: char)
    requires !('A' <= c <= 'Z') && !('a' <= c <= 'z')
    ensures c in Lower(s) <==> c in s
  {
    if c in s {
      var i :| 0 <= i < |s| && s[i] == c;
      assert Lower(s)[i] == c;
    }
    if c in Lower(s) {
      var i :| 0 <= i < |s| && Lower(s)[i] == c;
      assert s[i] == c;
    }
  }

  predicate IsPrefix(p: string, s: string) {
    |p| <= |s| && s[..|p|] == p
  }

  /** `s.includes(sub)`: `sub` occurs somewhere in `s`. */
  predicate Contains(s: string, sub: string)
    decreases |s|
  {
    IsPrefix(sub, s) || (|s| > 0 && Contains(s[1..], sub))
  }

  /** Occurrence at an explicit offset, the reading used in proofs. */
  predicate OccursAt(s: string, sub: string, i: int) {
    0 <= i && i + |sub| <= |s| && s[i..i + |sub|] == sub
  }

  lemma {:induction false} ContainsIffOccurs(s: string, sub: string)
    ensures Contains(s, sub) <==> exists i :: OccursAt(s, sub, i)
    decreases |s|
  {
    if IsPrefix(sub, s) {
      assert OccursAt(s, sub, 0);
    } else if |s| == 0 {
      assert forall i :: !OccursAt(s, sub, i);
    } else {
      ContainsIffOccurs(s[1..], sub);
      if Contains(s[1..], sub) {
        var i :| OccursAt(s[1..], sub, i);
        assert s[1..][i..i + |sub|] == s[i + 1..i + 1 + |sub|];
        assert OccursAt(s, sub, i + 1);
      }
      forall i | OccursAt(s, sub, i) ensures Contains(s[1..], sub) {
        assert i != 0;
        assert s[1..][i - 1..i - 1 + |sub|] == s[i..i + |sub|];
        assert OccursAt(s[1..], sub, i - 1);
      }
    }
  }

  /** The empty string occurs in every string, so an empty filter keeps everything. */
  lemma ContainsEmpty(s: string)
    ensures Contains(s, "")
  {
    assert IsPrefix("", s);
  }

  // ---------------------------------------------------------------------------
  // Trimming

  /** The characters JavaScript's `trim` (and a `\s` regex) treats as white space. */
  predicate IsSpace(c: char) {
    || c == ' ' || c == '\t' || c == '\n' || c == '\r'
    || c == '\U{000B}' || c == '\U{000C}' || c == '\U{00A0}' || c == '\U{1680}'
    || ('\U{2000}' <= c <= '\U{200A}')
    || c == '\U{2028}' || c == '\U{2029}' || c == '\U{202F}' || c == '\U{205F}'
    || c == '\U{3000}' || c == '\U{FEFF}'
  }

  /** The end of the run of white space that starts at `i`. */
  function SpaceRunEnd(s: string, i: nat): (r: nat)
    requires i <= |s|
    ensures i <= r <= |s|
    ensures forall k :: i <= k < r ==> IsSpace(s[k])
    ensures r == |s| || !IsSpace(s[r])
    decreases |s| - i
  {
    if i < |s| && IsSpace(s[i]) then SpaceRunEnd(s, i + 1) else i
  }

  /** The start of the run of white space that ends at `j`, stopping at `lo`. */
  function SpaceRunStart(s: string, lo: nat, j: nat): (r: nat)
    requires lo <= j <= |s|
    ensures lo <= r <= j
    ensures forall k :: r <= k < j ==> IsSpace(s[k])
    ensures r == lo || !IsSpace(s[r - 1])
  {
    if lo < j && IsSpace(s[j - 1]) then SpaceRunStart(s, lo, j - 1) else j
  }

  /** `r` is `s` with the white space before offset `a` and after `r` removed. */
  predicate TrimmedAt(s: string, r: string, a: int) {
    && 0 <= a && a + |r| <= |s| && s[a..a + |r|] == r
    && (forall i :: 0 <= i < a ==> IsSpace(s[i]))
    && (forall i :: a + |r| <= i < |s| ==> IsSpace(s[i]))
  }

  /** `s.trim()`: the infix that neither starts nor ends with white space,
      obtained by dropping only white space at both ends. */
  function Trim(s: string): (r: string)
    ensures |r| <= |s|
    ensures exists a :: TrimmedAt(s, r, a)
    ensures r == [] || (!IsSpace(r[0]) && !IsSpace(r[|r| - 1]))
    ensures (forall i :: 0 <= i < |s| ==> !IsSpace(s[i])) ==> r == s
    ensures (forall i :: 0 <= i < |s| ==> IsSpace(s[i])) ==> r == []
  {
    var a := SpaceRunEnd(s, 0);
    var b := SpaceRunStart(s, a, |s|);
    assert TrimmedAt(s, s[a..b], a);
    s[a..b]
  }

  /** Trimming a trimmed string changes nothing. */
  lemma TrimIdempotent(s: string)
    ensures Trim(Trim(s)) == Trim(s)
  {
    var r := Trim(s);
    assert r == [] || (!IsSpace(r[0]) && !IsSpace(r[|r| - 1]));
  }

  // ---------------------------------------------------------------------------
  // Lengths

  /** The UTF-16 code units a character takes: two outside the Basic Multilingual Plane. */
  function Utf16Width(c: char): nat {
    if c as int > 0xFFFF then 2 else 1
  }

  /** `s.length` in JavaScript: the number of UTF-16 code units. */
  function Utf16Length(s: string): (n: nat)
    ensures |s| <= n <= 2 * |s|
    ensures (forall i :: 0 <= i < |s| ==> Utf16Width(s[i]) == 1) ==> n == |s|
  {
    if s == [] then 0 else Utf16Width(s[0]) + Utf16Length(s[1..])
  }

  /** The two variation selectors that ask for text or emoji presentation. */
  predicate IsPresentationSelector(c: char) {
    c == '\U{FE0E}' || c == '\U{FE0F}'
  }

  /** The validator library's length: code points, not counting the
      presentation selectors. */
  function ValidatorLength(s: string): (n: nat)
    ensures n <= |s|
    ensures (forall i :: 0 <= i < |s| ==> !IsPresentationSelector(s[i])) ==> n == |s|
  {
    if s == [] then 0 else (if IsPresentationSelector(s[0]) then 0 else 1) + ValidatorLength(s[1..])
  }

  /** The page's length of a concatenation is the sum of the parts' lengths. */
  lemma {:induction false} Utf16LengthAppend(a: string, b: string)
    ensures Utf16Length(a + b) == Utf16Length(a) + Utf16Length(b)
    decreases |a|
  {
    if a != [] {
      assert (a + b)[1..] == a[1..] + b;
      Utf16LengthAppend(a[1..], b);
    } else {
      assert a + b == b;
    }
  }

  /** The validator's length of a concatenation is the sum of the parts' lengths. */
  lemma {:induction false} ValidatorLengthAppend(a: string, b: string)
    ensures ValidatorLength(a + b) == ValidatorLength(a) + ValidatorLength(b)
    decreases |a|
  {
    if a != [] {
      assert (a + b)[1..] == a[1..] + b;
      ValidatorLengthAppend(a[1..], b);
    } else {
      assert a + b == b;
    }
  }

  /** Each character, wherever it stands, adds its own width to the page's
      length: one code unit, or two outside the Basic Multilingual Plane. */
  lemma {:induction false} Utf16LengthSplit(a: string, c: char, b: string)
    ensures Utf16Length(a + [c] + b) == Utf16Length(a + b) + Utf16Width(c)
  {
    Utf16LengthAppend(a + [c], b);
    Utf16LengthAppend(a, [c]);
    Utf16LengthAppend(a, b);
    assert [c][1..] == [];
  }

  /** Each character, wherever it stands, adds one to the validator's length,
      except a presentation selector, which adds nothing. */
  lemma {:induction false} ValidatorLengthSplit(a: string, c: char, b: string)
    ensures ValidatorLength(a + [c] + b) == ValidatorLength(a + b) + (if IsPresentationSelector(c) then 0 else 1)
  {
    ValidatorLengthAppend(a + [c], b);
    ValidatorLengthAppend(a, [c]);
    ValidatorLengthAppend(a, b);
    assert [c][1..] == [];
  }

  /** The validator never counts more than the page does. */
  lemma ValidatorCountsNoMore(s: string)
    ensures ValidatorLength(s) <= Utf16Length(s)
  {
  }

  // ---------------------------------------------------------------------------
  // First match

  /** `findIndex` / `findOne`: the position of the first element satisfying `p`. */
  function FirstWhere<T>(s: seq<T>, p: T -> bool): (r: Option<nat>)
    ensures r.Some? ==> r.value < |s| && p(s[r.value])
    ensures r.Some? ==> forall j :: 0 <= j < r.value ==> !p(s[j])
    ensures r.None? <==> forall j :: 0 <= j < |s| ==> !p(s[j])
  {
    if |s| == 0 then None
    else if p(s[0]) then Some(0)
    else match FirstWhere(s[1..], p)
      case None => None
      case Some(i) => Some(i + 1)
  }

  /** `filter` / `find`: the elements satisfying `p`, in their original order. */
  function Filter<T(!new)>(s: seq<T>, p: T -> bool): (r: seq<T>)
    ensures |r| <= |s|
    ensures forall x :: x in r <==> x in s && p(x)
  {
    if |s| == 0 then []
    else
      var rest := Filter(s[1..], p);
      assert s == [s[0]] + s[1..];
      if p(s[0]) then [s[0]] + rest else rest
  }

  /** Filtering keeps every passing element as often as it occurs, and drops
      every other one. */
  lemma {:induction false} FilterCount<T(!new)>(s: seq<T>, p: T -> bool, x: T)
    ensures multiset(Filter(s, p))[x] == if p(x) then multiset(s)[x] else 0
    decreases |s|
  {
    if |s| > 0 {
      assert s == [s[0]] + s[1..];
      FilterCount(s[1..], p, x);
    }
  }

  /** Predicates that agree on every element filter alike. */
  lemma {:induction false} FilterAgrees<T(!new)>(s: seq<T>, p: T -> bool, q: T -> bool)
    requires forall x :: p(x) == q(x)
    ensures Filter(s, p) == Filter(s, q)
    decreases |s|
  {
    if |s| > 0 {
      FilterAgrees(s[1..], p, q);
    }
  }

  /** Filtering keeps the order: appending an element appends it to the
      result when it passes. */
  lemma {:induction false} FilterSnoc<T(!new)>(s: seq<T>, x: T, p: T -> bool)
    ensures Filter(s + [x], p) == Filter(s, p) + (if p(x) then [x] else [])
    decreases |s|
  {
    if |s| == 0 {
      assert s + [x] == [x];
    } else {
      assert (s + [x])[0] == s[0];
      assert (s + [x])[1..] == s[1..] + [x];
      FilterSnoc(s[1..], x, p);
    }
  }

  /** Filtering by a predicate every element passes changes nothing. */
  lemma {:induction false} FilterAllPass<T(!new)>(s: seq<T>, p: T -> bool)
    requires forall k :: 0 <= k < |s| ==> p(s[k])
    ensures Filter(s, p) == s
    decreases |s|
  {
    if |s| > 0 {
      FilterAllPass(s[1..], p);
      assert s == [s[0]] + s[1..];
    }
  }

  /** When exactly one element fails, filtering drops exactly one. */
  lemma {:induction false} FilterDropsOne<T(!new)>(s: seq<T>, p: T -> bool, i: nat)
    requires i < |s| && !p(s[i])
    requires forall k :: 0 <= k < |s| && k != i ==> p(s[k])
    ensures |Filter(s, p)| == |s| - 1
    decreases |s|
  {
    if i == 0 {
      FilterAllPass(s[1..], p);
    } else {
      FilterDropsOne(s[1..], p, i - 1);
    }
  }

  // ---------------------------------------------------------------------------
  // String order

  /** Lexicographic order by character code, the order of an ascending string sort. */
  predicate StrLeq(a: string, b: string)
    decreases |a|
  {
    if |a| == 0 then true
    else if |b| == 0 then false
    else if a[0] != b[0] then a[0] < b[0]
    else StrLeq(a[1..], b[1..])
  }

  lemma {:induction false} StrLeqTotal(a: string, b: string)
    ensures StrLeq(a, b) || StrLeq(b, a)
    decreases |a|
  {
    if |a| > 0 && |b| > 0 && a[0] == b[0] {
      StrLeqTotal(a[1..], b[1..]);
    }
  }

  lemma {:induction false} StrLeqTransitive(a: string, b: string, c: string)
    requires StrLeq(a, b) && StrLeq(b, c)
    ensures StrLeq(a, c)
    decreases |a|
  {
    if |a| > 0 && |b| > 0 && |c| > 0 && a[0] == b[0] && b[0] == c[0] {
      StrLeqTransitive(a[1..], b[1..], c[1..]);
    }
  }
}

=== FILE: contacts_page.dfy ===
/** The contacts page: whether it fetches and shows anything, the in-page
    filter over the fetched list, picking a user, and logging out. */
module ContactsPage {
  import opened Common
  import opened Json
  import opened AuthSlice
  import ApiSlice
  import UserSlice
  import UserStore
  import UserController

  /** What a listed user must carry for the filter to read it: text in
      `username` and `email`, as every list the server sends does. */
  predicate Listable(u: Obj) {
    HasText(u, "username") && HasText(u, "email")
  }

  /** The filter's test: the query, ignoring case, occurs in the username or the e-mail. */
  predicate Shows(u: Obj, query: string)
    requires Listable(u)
  {
    Contains(Lower(u["username"].s), Lower(query)) || Contains(Lower(u["email"].s), Lower(query))
  }

  /** `data?.users?.filter(...) || []`: the fetched users that match the query,
      in their fetched order; nothing while there is no data. */
  function FilterUsers(data: Option<seq<Obj>>, query: string): (r: seq<Obj>)
    requires data.Some? ==> forall i :: 0 <= i < |data.value| ==> Listable(data.value[i])
    ensures data.None? ==> r == []
    ensures |r| <= if data.Some? then |data.value| else 0
    ensures data.Some? ==> forall u :: u in r <==> u in data.value && Shows(u, query)
  {
    match data
    case None => []
    case Some(users) =>
      Filter(users, (u: Obj) => Listable(u) && Shows(u, query))
  }

  /** An empty query shows the whole list. */
  lemma {:induction false} EmptyQueryShowsAll(users: seq<Obj>)
    requires forall i :: 0 <= i < |users| ==> Listable(users[i])
    ensures FilterUsers(Some(users), "") == users
  {
    forall i | 0 <= i < |users|
      ensures Listable(users[i]) && Shows(users[i], "")
    {
      ContainsEmpty(Lower(users[i]["username"].s));
    }
    FilterAllPass(users, (u: Obj) => Listable(u) && Shows(u, ""));
  }

  /** The page filter and the server search use the same test: a user's
      public view passes the filter exactly when the document matches the search. */
  lemma {:induction false} FilterMatchesServerSearch(d: UserStore.UserDoc, query: string)
    ensures Listable(UserStore.Public(d))
    ensures Shows(UserStore.Public(d), query) <==> UserController.Matches(d, query)
  {
  }

  /** The users query as the page issues it: skipped, so no data, while the
      visitor has no session; otherwise whatever the server answered. */
  function UsersQuery(a: AuthState, answered: Option<seq<Obj>>): (r: Option<seq<Obj>>)
    ensures !a.isAuthenticated ==> r.None?
    ensures a.isAuthenticated ==> r == answered
  {
    if a.isAuthenticated then answered else None
  }

  /** The filter keeps the fetched order: a user appended to the list is
      appended to the result exactly when it passes. */
  lemma {:induction false} FilterKeepsOrder(users: seq<Obj>, u: Obj, query: string)
    requires forall i :: 0 <= i < |users| ==> Listable(users[i])
    requires Listable(u)
    ensures FilterUsers(Some(users + [u]), query)
         == FilterUsers(Some(users), query) + (if Shows(u, query) then [u] else [])
  {
    FilterSnoc(users, u, (x: Obj) => Listable(x) && Shows(x, query));
  }

  /** What the page renders: nothing for a visitor without a session (who is
      sent to the login page, and for whom the list is not even fetched),
      otherwise the filtered list. */
  function Render(a: AuthState, data: Option<seq<Obj>>, query: string): (r: Option<seq<Obj>>)
    requires data.Some? ==> forall i :: 0 <= i < |data.value| ==> Listable(data.value[i])
    ensures r.None? <==> !a.isAuthenticated
    ensures r.Some? ==> r.value == FilterUsers(data, query)
  {
    if !a.isAuthenticated then None else Some(FilterUsers(data, query))
  }

  /** Clicking a user selects it for the chat and opens the chat. */
  function HandleUserClick(s: UserSlice.UserState, u: Obj): (r: (UserSlice.UserState, string))
    ensures r.0.selectedUser == Some(u) && r.0.allUsers == s.allUsers && r.0.loading == s.loading
    ensures r.1 == "/chat"
  {
    (UserSlice.SetSelectedUser(s, Some(u)), "/chat")
  }

  /** What a logout click leaves behind: the session, the route opened, and
      whether an error was logged to the console. */
  datatype LoggedOut = LoggedOut(client: Client, navigate: string, logged: bool)

  /** `handleLogout`: the server's answer only decides whether an error is
      logged; the session is cleared and the login page opened either way. */
  function HandleLogout(c: Client, answer: ApiSlice.Unwrapped<()>): (r: LoggedOut)
    ensures !r.client.auth.isAuthenticated && r.client.auth.user.None? && r.client.auth.token.None?
    ensures TokenKey !in r.client.storage && UserKey !in r.client.storage
    ensures Valid(r.client)
    ensures r.navigate == "/login"
    // The store's own logout runs, whatever the answer.
    ensures r.client == Logout(c)
    ensures r.logged <==> answer.Rejected?
  {
    var logged := match answer
      case Fulfilled(_) => false
      case Rejected(_) => true;
    LoggedOut(Logout(c), "/login", logged)
  }

  /** Two different answers from the server end in the same session and route. */
  lemma LogoutIgnoresServer(c: Client, a1: ApiSlice.Unwrapped<()>, a2: ApiSlice.Unwrapped<()>)
    ensures HandleLogout(c, a1).client == HandleLogout(c, a2).client
    ensures HandleLogout(c, a1).navigate == HandleLogout(c, a2).navigate
  {
  }
}

=== FILE: http.dfy ===
/** The shape of every controller response: `{success: false, message, errors?}`
    with an error status, or `{success: true, message?, ...payload}`. */
module Http {
  import opened Common

  /** One entry of a validation error list: which body field, which message. */
  datatype FieldError = FieldError(field: string, message: string)

  datatype Reply<+P> =
    | Failure(status: nat, message: string, errors: seq<FieldError>)
    | Success(status: nat, note: Option<string>, payload: P)

  const BadRequest: nat := 400
  const Unauthorized: nat := 401
  const NotFound: nat := 404
  const ServerError: nat := 500
}

=== FILE: json.dfy ===
/** JSON objects as they cross the wire and sit in client state. An object is a
    finite map from key to value; a key that JavaScript would hold as
    `undefined` is simply absent, because JSON cannot carry it. */
module Json {
  import opened Common

  datatype JVal = JStr(s: string) | JNum(n: int) | JBool(b: bool) | JNull

  type Obj = map<string, JVal>

  /** `{...base, ...patch}`: every key of `patch` wins, every other key of `base` survives. */
  function Spread(base: Obj, patch: Obj): (r: Obj)
    ensures r.Keys == base.Keys + patch.Keys
    ensures forall k :: k in patch ==> r[k] == patch[k]
    ensures forall k :: k in base && k !in patch ==> r[k] == base[k]
  {
    base + patch
  }

  /** `o[k]`, with `undefined` for a missing key. */
  function Get(o: Obj, k: string): Option<JVal> {
    if k in o then Some(o[k]) else None
  }

  /** The key holds a string. */
  predicate HasText(o: Obj, k: string) {
    k in o && o[k].JStr?
  }

  /** `o?.[k] || ""` for a field that is a string when present: a missing or
      non-string value becomes "". */
  function TextOr(o: Option<Obj>, k: string): (r: string)
    ensures o.Some? && HasText(o.value, k) ==> r == o.value[k].s
    ensures o.None? || !HasText(o.value, k) ==> r == ""
  {
    if o.Some? && HasText(o.value, k) then o.value[k].s else ""
  }
}

=== FILE: routes.dfy ===
/** The server's request validation rules for signup and login, and the route
    table: which handler a method and path reach, and which handlers sit
    behind the access guard. */
module Routes {
  import opened Common
  import opened Http
  import ApiSlice

  datatype SignupBody = SignupBody(username: string, email: string, password: string)
  datatype LoginBody = LoginBody(email: string, password: string)

  /** The validator library's e-mail check and e-mail normalisation, taken as given. */
  datatype EmailRules = EmailRules(isEmail: string -> bool, normalize: string -> string)

  /** The individual validation rules of the two routes. */
  datatype Rule = UsernameLength | UsernameChars | EmailFormat | PasswordLength | PasswordRequired

  function FieldOf(r: Rule): string {
    match r
    case UsernameLength => "username"
    case UsernameChars => "username"
    case EmailFormat => "email"
    case PasswordLength => "password"
    case PasswordRequired => "password"
  }

  function MessageOf(r: Rule): string {
    match r
    case UsernameLength => "Username must be between 3 and 30 characters"
    case UsernameChars => "Username can only contain letters, numbers, and underscores"
    case EmailFormat => "Please enter a valid email"
    case PasswordLength => "Password must be at least 6 characters"
    case PasswordRequired => "Password is required"
  }

  /** Every rule reports its own message: no two messages have the same length. */
  lemma MessagesDistinct(r1: Rule, r2: Rule)
    ensures MessageOf(r1) == MessageOf(r2) ==> r1 == r2
  {
  }

  /** The position of each rule in the declared validation chains, which is
      the order the error list reports them in. */
  function Rank(r: Rule): nat {
    match r
    case UsernameLength => 0
    case UsernameChars => 1
    case EmailFormat => 2
    case PasswordLength => 3
    case PasswordRequired => 4
  }

  /** Each rule at most once, in declaration order: ranks strictly rise from
      one entry to the next. */
  predicate InOrder(vs: seq<Rule>) {
    |vs| <= 1 || (Rank(vs[0]) < Rank(vs[1]) && InOrder(vs[1..]))
  }

  /** Rising step by step is rising between any two positions. */
  lemma {:induction false} InOrderPairwise(vs: seq<Rule>)
    ensures InOrder(vs) <==> forall i, j :: 0 <= i < j < |vs| ==> Rank(vs[i]) < Rank(vs[j])
  {
    if |vs| > 1 {
      InOrderPairwise(vs[1..]);
      if InOrder(vs) {
        forall i, j | 0 <= i < j < |vs|
          ensures Rank(vs[i]) < Rank(vs[j])
        {
          assert vs[j] == vs[1..][j - 1];
          if i > 0 {
            assert vs[i] == vs[1..][i - 1];
          } else if j > 1 {
            assert vs[1] == vs[1..][0];
          }
        }
      }
      if forall i, j :: 0 <= i < j < |vs| ==> Rank(vs[i]) < Rank(vs[j]) {
        forall i, j | 0 <= i < j < |vs[1..]|
          ensures Rank(vs[1..][i]) < Rank(vs[1..][j])
        {
          assert vs[1..][i] == vs[i + 1] && vs[1..][j] == vs[j + 1];
        }
      }
    }
  }

  /** Two ordered lists, the first ranked wholly below `k` and the second
      wholly at or above it, concatenate to an ordered list. */
  lemma {:induction false} OrderedConcat(a: seq<Rule>, b: seq<Rule>, k: nat)
    requires InOrder(a) && InOrder(b)
    requires forall x :: x in a ==> Rank(x) < k
    requires forall y :: y in b ==> k <= Rank(y)
    ensures InOrder(a + b)
  {
    if a == [] {
      assert a + b == b;
    } else {
      assert (a + b)[1..] == a[1..] + b;
      assert a[0] in a;
      if |a| > 1 {
        assert a[1] in a;
      } else if b != [] {
        assert b[0] in b;
      }
      forall x | x in a[1..] ensures Rank(x) < k { assert x in a; }
      OrderedConcat(a[1..], b, k);
    }
  }

  /** The error list sent back: one entry per violated rule, in order. */
  function Report(vs: seq<Rule>): (errs: seq<FieldError>)
    ensures |errs| == |vs|
    ensures forall i :: 0 <= i < |vs| ==> errs[i] == FieldError(FieldOf(vs[i]), MessageOf(vs[i]))
  {
    seq(|vs|, i requires 0 <= i < |vs| => FieldError(FieldOf(vs[i]), MessageOf(vs[i])))
  }

  const MinUsername := 3
  const MaxUsername := 30
  const MinPassword := 6

  predicate IsWordChar(c: char) {
    ('a' <= c <= 'z') || ('A' <= c <= 'Z') || ('0' <= c <= '9') || c == '_'
  }

  /** The username pattern `^[a-zA-Z0-9_]+$`. */
  predicate MatchesUsernamePattern(s: string) {
    |s| > 0 && forall i :: 0 <= i < |s| ==> IsWordChar(s[i])
  }

  /** What the signup rules demand, stated field by field. */
  predicate SignupAcceptable(rules: EmailRules, b: SignupBody) {
    && MinUsername <= ValidatorLength(Trim(b.username)) <= MaxUsername
    && MatchesUsernamePattern(Trim(b.username))
    && rules.isEmail(Trim(b.email))
    && ValidatorLength(b.password) >= MinPassword
  }

  /** The rule, if it fails. */
  function Check(ok: bool, r: Rule): (vs: seq<Rule>)
    ensures r in vs <==> !ok
    ensures forall x :: x in vs ==> x == r
    ensures vs == [] <==> ok
    ensures InOrder(vs)
  {
    if ok then [] else [r]
  }

  /** Both username rules, run on the already trimmed value; both may fail. */
  function UsernameViolations(t: string): (vs: seq<Rule>)
    ensures UsernameLength in vs <==> !(MinUsername <= ValidatorLength(t) <= MaxUsername)
    ensures UsernameChars in vs <==> !MatchesUsernamePattern(t)
    ensures forall x :: x in vs ==> x == UsernameLength || x == UsernameChars
    ensures InOrder(vs)
  {
    var a := Check(MinUsername <= ValidatorLength(t) <= MaxUsername, UsernameLength);
    var b := Check(MatchesUsernamePattern(t), UsernameChars);
    OrderedConcat(a, b, 1);
    a + b
  }

  /** The e-mail rule, run on the already trimmed value; shared by signup and login. */
  function EmailViolations(rules: EmailRules, t: string): (vs: seq<Rule>)
    ensures EmailFormat in vs <==> !rules.isEmail(t)
    ensures forall x :: x in vs ==> x == EmailFormat
    ensures InOrder(vs)
  {
    Check(rules.isEmail(t), EmailFormat)
  }

  /** The password length rule, run on the raw value. */
  function PasswordViolations(password: string): (vs: seq<Rule>)
    ensures PasswordLength in vs <==> ValidatorLength(password) < MinPassword
    ensures forall x :: x in vs ==> x == PasswordLength
    ensures InOrder(vs)
  {
    Check(ValidatorLength(password) >= MinPassword, PasswordLength)
  }

  /** The username, e-mail and password chains run one after another. */
  lemma {:induction false} JoinChains(u: seq<Rule>, e: seq<Rule>, pw: seq<Rule>)
    requires InOrder(u) && InOrder(e) && InOrder(pw)
    requires forall x :: x in u ==> Rank(x) < 2
    requires forall x :: x in e ==> Rank(x) == 2
    requires forall x :: x in pw ==> 3 <= Rank(x)
    ensures InOrder(u + e + pw)
    ensures forall x :: x in u + e + pw <==> x in u || x in e || x in pw
  {
    OrderedConcat(u, e, 2);
    OrderedConcat(u + e, pw, 3);
  }

  /** The signup rules over trimmed username and e-mail and the raw password. */
  function SignupRuleViolations(rules: EmailRules, username: string, email: string, password: string)
    : (vs: seq<Rule>)
    ensures UsernameLength in vs <==> !(MinUsername <= ValidatorLength(username) <= MaxUsername)
    ensures UsernameChars in vs <==> !MatchesUsernamePattern(username)
    ensures EmailFormat in vs <==> !rules.isEmail(email)
    ensures PasswordLength in vs <==> ValidatorLength(password) < MinPassword
    ensures PasswordRequired !in vs
    ensures InOrder(vs)
  {
    var u := UsernameViolations(username);
    var e := EmailViolations(rules, email);
    var pw := PasswordViolations(password);
    JoinChains(u, e, pw);
    u + e + pw
  }

  /** Every failing signup rule, in declaration order; username and e-mail are
      trimmed first, the password is not. */
  function SignupViolations(rules: EmailRules, b: SignupBody): (vs: seq<Rule>)
    ensures vs == [] <==> SignupAcceptable(rules, b)
    ensures UsernameLength in vs <==> !(MinUsername <= ValidatorLength(Trim(b.username)) <= MaxUsername)
    ensures UsernameChars in vs <==> !MatchesUsernamePattern(Trim(b.username))
    ensures EmailFormat in vs <==> !rules.isEmail(Trim(b.email))
    ensures PasswordLength in vs <==> ValidatorLength(b.password) < MinPassword
    ensures PasswordRequired !in vs
    ensures InOrder(vs)
  {
    var vs := SignupRuleViolations(rules, Trim(b.username), Trim(b.email), b.password);
    assert vs != [] ==> vs[0] in vs;
    vs
  }

  /** The body after sanitising: username and e-mail trimmed, e-mail normalised. */
  function SanitizeSignup(rules: EmailRules, b: SignupBody): (s: SignupBody)
    ensures s.username == Trim(b.username) && s.email == rules.normalize(Trim(b.email))
    ensures s.password == b.password
  {
    SignupBody(Trim(b.username), rules.normalize(Trim(b.email)), b.password)
  }

  /** The login rules over the trimmed e-mail and the raw password. */
  function LoginRuleViolations(rules: EmailRules, email: string, password: string): (vs: seq<Rule>)
    ensures vs == [] <==> rules.isEmail(email) && password != ""
    ensures EmailFormat in vs <==> !rules.isEmail(email)
    ensures PasswordRequired in vs <==> password == ""
    ensures forall r :: r in vs ==> r == EmailFormat || r == PasswordRequired
    ensures InOrder(vs)
  {
    var e := EmailViolations(rules, email);
    var pw := Check(password != "", PasswordRequired);
    OrderedConcat(e, pw, 3);
    assert |e + pw| == |e| + |pw|;
    e + pw
  }

  /** Every failing login rule: the e-mail rule and a non-empty password. */
  function LoginViolations(rules: EmailRules, b: LoginBody): (vs: seq<Rule>)
    ensures vs == [] <==> rules.isEmail(Trim(b.email)) && b.password != ""
    ensures EmailFormat in vs <==> !rules.isEmail(Trim(b.email))
    ensures PasswordRequired in vs <==> b.password == ""
    ensures forall r :: r in vs ==> r == EmailFormat || r == PasswordRequired
    ensures InOrder(vs)
  {
    LoginRuleViolations(rules, Trim(b.email), b.password)
  }

  /** The login body after sanitising: the e-mail trimmed and normalised, the
      password untouched. */
  function SanitizeLogin(rules: EmailRules, b: LoginBody): (s: LoginBody)
    ensures s.email == rules.normalize(Trim(b.email)) && s.password == b.password
  {
    LoginBody(rules.normalize(Trim(b.email)), b.password)
  }

  /** Signup and login judge and normalise an e-mail address identically. */
  lemma SameEmailRule(rules: EmailRules, s: SignupBody, l: LoginBody)
    requires s.email == l.email
    ensures EmailFormat in SignupViolations(rules, s) <==> EmailFormat in LoginViolations(rules, l)
    ensures SanitizeSignup(rules, s).email == SanitizeLogin(rules, l).email
  {
  }

  /** Login has no length rule: any non-empty password passes validation,
      though signup would refuse one shorter than six characters. */
  lemma LoginImposesNoLength(rules: EmailRules, l: LoginBody, s: SignupBody)
    requires l.password != "" && rules.isEmail(Trim(l.email))
    requires s.password == l.password && ValidatorLength(l.password) < MinPassword
    ensures LoginViolations(rules, l) == []
    ensures PasswordLength in SignupViolations(rules, s)
  {
  }

  /** Validation judges the sanitised username: re-trimming it changes nothing. */
  lemma {:induction false} TrimmedUsernameJudgedAlike(rules: EmailRules, b: SignupBody)
    ensures SignupViolations(rules, b.(username := Trim(b.username))) == SignupViolations(rules, b)
  {
    TrimIdempotent(b.username);
  }

  // ---------------------------------------------------------------------------
  // Route table

  datatype Handler =
    | SignupH
    | LoginH
    | LogoutH
    | MeH
    | AllUsersH
    | SearchH
    | ByIdH(id: string)
    | ProfileH

  /** A matched route: its handler, and whether the access guard runs first. */
  datatype Route = Route(handler: Handler, guarded: bool)

  const UsersPrefix := "/users/"

  /** A route parameter: one non-empty path segment. */
  predicate IsSegment(s: string) {
    |s| > 0 && '/' !in s
  }

  /** The route a method and path (below `/api`, query string removed) reach,
      trying routes in their declaration order. Express matches route paths
      without regard to letter case, so the path is lower-cased before it is
      compared; a user id keeps the letters it was written with. The account
      router guards logout and "who am I" one by one; the user router guards
      all its routes. */
  function Resolve(verb: ApiSlice.Method, path: string): (r: Option<Route>)
    ensures r.Some? && !r.value.guarded ==>
      verb == ApiSlice.POST && (r.value.handler.SignupH? || r.value.handler.LoginH?)
    ensures r.Some? && (r.value.handler.SignupH? || r.value.handler.LoginH?) ==> !r.value.guarded
    ensures r.Some? && r.value.handler.ByIdH? ==>
      IsPrefix(UsersPrefix, Lower(path)) && r.value.handler.id == path[|UsersPrefix|..]
  {
    var l := Lower(path);
    match verb
    case POST =>
      if l == "/auth/signup" then Some(Route(SignupH, false))
      else if l == "/auth/login" then Some(Route(LoginH, false))
      else if l == "/auth/logout" then Some(Route(LogoutH, true))
      else None
    case GET =>
      if l == "/auth/me" then Some(Route(MeH, true))
      else if l == "/users" then Some(Route(AllUsersH, true))
      else if l == "/users/search" then Some(Route(SearchH, true))
      else if IsPrefix(UsersPrefix, l) && IsSegment(path[|UsersPrefix|..])
      then Some(Route(ByIdH(path[|UsersPrefix|..]), true))
      else None
    case PUT =>
      if l == "/users/profile" then Some(Route(ProfileH, true)) else None
  }

  /** The route table's paths are written in lower case. */
  lemma RoutePathsAreLowercase()
    ensures Lower("/auth/signup") == "/auth/signup" && Lower("/auth/login") == "/auth/login"
    ensures Lower("/auth/logout") == "/auth/logout" && Lower("/auth/me") == "/auth/me"
    ensures Lower("/users") == "/users" && Lower("/users/search") == "/users/search"
    ensures Lower("/users/profile") == "/users/profile" && Lower(UsersPrefix) == UsersPrefix
  {
    LowerKeepsLowercase("/auth/signup");
    LowerKeepsLowercase("/auth/login");
    LowerKeepsLowercase("/auth/logout");
    LowerKeepsLowercase("/auth/me");
    LowerKeepsLowercase("/users");
    LowerKeepsLowercase("/users/search");
    LowerKeepsLowercase("/users/profile");
    LowerKeepsLowercase(UsersPrefix);
  }

  /** Letter case in the path never changes which route is reached or whether
      it is guarded; only a user id keeps the case it was written in. */
  lemma {:induction false} ResolveIgnoresCase(verb: ApiSlice.Method, path: string)
    ensures Resolve(verb, path).Some? <==> Resolve(verb, Lower(path)).Some?
    ensures Resolve(verb, path).Some? && !Resolve(verb, path).value.handler.ByIdH? ==>
      Resolve(verb, path) == Resolve(verb, Lower(path))
    ensures Resolve(verb, path).Some? && Resolve(verb, path).value.handler.ByIdH? ==>
      Resolve(verb, Lower(path))
        == Some(Route(ByIdH(Lower(Resolve(verb, path).value.handler.id)), true))
  {
    LowerIdempotent(path);
    if |UsersPrefix| <= |path| {
      var id := path[|UsersPrefix|..];
      assert Lower(path)[|UsersPrefix|..] == Lower(id);
      LowerKeepsOthers(id, '/');
      assert IsSegment(id) <==> IsSegment(Lower(id));
    }
  }

  /** The path of a URL: everything before the first `?`. */
  function PathPart(url: string): (p: string)
    ensures '?' !in url ==> p == url
    ensures IsPrefix(p, url) && '?' !in p
  {
    if '?' !in url then url
    else
      match FirstWhere(url, (c: char) => c == '?')
      case None => url
      case Some(i) => url[..i]
  }

  lemma {:induction false} PathPartOfQuery(path: string, rest: string)
    requires '?' !in path
    ensures PathPart(path + "?" + rest) == path
  {
    var url := path + "?" + rest;
    assert url[|path|] == '?';
    var i := FirstWhere(url, (c: char) => c == '?');
    assert i == Some(|path|) by {
      assert forall j :: 0 <= j < |path| ==> url[j] == path[j];
    }
    assert url[..|path|] == path;
  }

  /** The server handler each client endpoint is meant to reach. */
  function HandlerFor(e: ApiSlice.Endpoint): Handler {
    match e
    case Signup => SignupH
    case Login => LoginH
    case Logout => LogoutH
    case GetMe => MeH
    case GetAllUsers => AllUsersH
    case GetUserById(id) => ByIdH(id)
    case SearchUsers(_) => SearchH
    case UpdateProfile => ProfileH
  }

  /** Whether the client expects the endpoint to need its credential. */
  predicate NeedsCredential(e: ApiSlice.Endpoint) {
    !(e.Signup? || e.Login?)
  }

  /** The client's endpoint table and the server's route table agree: every
      endpoint reaches its handler, provided a user id is one plain segment
      that is not the word "search" in any mix of cases, and the server guards
      exactly the endpoints other than signup and login. */
  lemma {:induction false} ClientServerAgree(e: ApiSlice.Endpoint)
    requires e.GetUserById? ==> IsSegment(e.id) && '?' !in e.id && Lower(e.id) != "search"
    ensures Resolve(ApiSlice.MethodOf(e), PathPart(ApiSlice.PathOf(e))) == Some(Route(HandlerFor(e), NeedsCredential(e)))
  {
    match e
    case SearchUsers(t) => SearchRouteAgrees(t);
    case GetUserById(id) => ByIdRouteAgrees(id);
    case _ => FixedRouteAgrees(e);
  }

  lemma {:induction false} FixedRouteAgrees(e: ApiSlice.Endpoint)
    requires !e.SearchUsers? && !e.GetUserById?
    ensures Resolve(ApiSlice.MethodOf(e), PathPart(ApiSlice.PathOf(e))) == Some(Route(HandlerFor(e), NeedsCredential(e)))
  {
    var p := ApiSlice.PathOf(e);
    assert '?' !in p;
    RoutePathsAreLowercase();
  }

  lemma {:induction false} SearchRouteAgrees(t: string)
    ensures Resolve(ApiSlice.GET, PathPart(ApiSlice.PathOf(ApiSlice.SearchUsers(t)))) == Some(Route(SearchH, true))
  {
    assert ApiSlice.PathOf(ApiSlice.SearchUsers(t)) == "/users/search" + "?" + ("q=" + t);
    PathPartOfQuery("/users/search", "q=" + t);
    RoutePathsAreLowercase();
  }

  /** The lower-cased path of a by-id request is the prefix and the
      lower-cased id. */
  lemma {:induction false} ByIdPath(id: string)
    requires '?' !in id
    ensures PathPart(ApiSlice.PathOf(ApiSlice.GetUserById(id))) == UsersPrefix + id
    ensures Lower(UsersPrefix + id) == UsersPrefix + Lower(id)
  {
    var p := UsersPrefix + id;
    assert ApiSlice.PathOf(ApiSlice.GetUserById(id)) == p;
    assert '?' !in p;
    LowerAppend(UsersPrefix, id);
    RoutePathsAreLowercase();
  }

  lemma {:induction false} ByIdRouteAgrees(id: string)
    requires IsSegment(id) && '?' !in id && Lower(id) != "search"
    ensures Resolve(ApiSlice.GET, PathPart(ApiSlice.PathOf(ApiSlice.GetUserById(id)))) == Some(Route(ByIdH(id), true))
  {
    ByIdPath(id);
    var p := UsersPrefix + id;
    var l := UsersPrefix + Lower(id);
    assert p[|UsersPrefix|..] == id;
    assert l[..|UsersPrefix|] == UsersPrefix && l[|UsersPrefix|..] == Lower(id);
    assert l != "/users/search" by {
      assert "/users/search"[|UsersPrefix|..] == "search";
    }
    assert l[1] == 'u' && "/auth/me"[1] == 'a';
    assert l != "/users" && l != "/auth/me";
  }

  /** A user whose id is the word "search", in any mix of cases, cannot be
      fetched by id: the search route is declared first and wins. */
  lemma {:induction false} IdSearchIsShadowed(id: string)
    requires Lower(id) == "search"
    ensures Resolve(ApiSlice.GET, PathPart(ApiSlice.PathOf(ApiSlice.GetUserById(id))))
         == Some(Route(SearchH, true))
  {
    LowerKeepsOthers(id, '?');
    ByIdPath(id);
    var l := UsersPrefix + Lower(id);
    assert l == "/users/search";
    assert l != "/auth/me" && l != "/users" by {
      assert l[1] == 'u' && |l| == 13;
    }
  }
}

=== FILE: settings_page.dfy ===
/** The settings page: the form filled from the session user, the update it
    sends, and how the answer changes the session. */
module SettingsPage {
  import opened Common
  import opened Json
  import opened Http
  import opened AuthSlice
  import opened ApiSlice
  import UserStore
  import UserController
  import AuthController

  datatype ProfileForm = ProfileForm(username: string, email: string, bio: string, phone: string, profilePic: string)

  /** The banner under the form: its kind ("success", "error" or "") and text. */
  datatype Banner = Banner(kind: string, text: string)

  const Saved := "Profile updated successfully!"
  const SaveFallback := "Failed to update profile"

  /** A form field holds the user's text under `k`, or "" when there is no
      user or the user has no text there. */
  predicate FieldFrom(user: Option<Obj>, k: string, v: string) {
    && (user.Some? && HasText(user.value, k) ==> v == user.value[k].s)
    && (user.None? || !HasText(user.value, k) ==> v == "")
  }

  /** The form's starting values: each field of the session user, "" when absent. */
  function InitialForm(user: Option<Obj>): (f: ProfileForm)
    ensures FieldFrom(user, "username", f.username)
    ensures FieldFrom(user, "email", f.email)
    ensures FieldFrom(user, "bio", f.bio)
    ensures FieldFrom(user, "phone", f.phone)
    ensures FieldFrom(user, "profilePic", f.profilePic)
  {
    ProfileForm(TextOr(user, "username"), TextOr(user, "email"), TextOr(user, "bio"),
                TextOr(user, "phone"), TextOr(user, "profilePic"))
  }

  /** The form sent as it is: all five fields defined, no password. */
  function Payload(f: ProfileForm): (b: UserController.ProfileBody)
    ensures b.username == Some(f.username) && b.email == Some(f.email) && b.bio == Some(f.bio)
    ensures b.phone == Some(f.phone) && b.profilePic == Some(f.profilePic) && b.password.None?
  {
    UserController.ProfileBody(Some(f.username), Some(f.email), Some(f.bio), Some(f.phone), Some(f.profilePic), None)
  }

  /** `handleSubmit`: a successful answer merges the returned user into the
      session; a rejection leaves the session and shows the server's message. */
  function HandleSubmit(c: Client, answer: Unwrapped<Obj>): (r: (Client, Banner))
    ensures answer.Fulfilled? && answer.body.success ==>
      r.0 == UpdateUser(c, answer.body.payload) && r.1 == Banner("success", Saved)
    ensures !(answer.Fulfilled? && answer.body.success) ==> r.0 == c
    ensures answer.Rejected? ==> r.1 == Banner("error", OrElse(answer.message, SaveFallback)) && r.1.text != ""
    ensures answer.Fulfilled? && !answer.body.success ==> r.1 == Banner("", "")
    ensures Valid(c) ==> Valid(r.0)
  {
    match answer
    case Fulfilled(b) =>
      if b.success then (UpdateUser(c, b.payload), Banner("success", Saved)) else (c, Banner("", ""))
    case Rejected(m) => (c, Banner("error", OrElse(m, SaveFallback)))
  }

  /** Saving the untouched form for a user whose phone is set changes nothing
      on the server. */
  lemma {:induction false} UntouchedFormIsNoOp(schema: UserStore.Schema, d: UserStore.UserDoc)
    requires d.phone.Some?
    ensures UserController.Merge(schema, d, Payload(InitialForm(Some(UserStore.Public(d))))) == d
  {
    var o := UserStore.Public(d);
    assert HasText(o, "bio") && o["bio"].s == d.bio;
    assert HasText(o, "profilePic") && o["profilePic"].s == d.profilePic;
    assert HasText(o, "phone") && o["phone"].s == d.phone.value;
  }

  /** ... but for a user without a phone, saving the untouched form stores an
      empty phone: the form turns the missing value into "", which is defined. */
  lemma {:induction false} UntouchedFormSetsEmptyPhone(schema: UserStore.Schema, d: UserStore.UserDoc)
    requires d.phone.None?
    ensures UserController.Merge(schema, d, Payload(InitialForm(Some(UserStore.Public(d))))).phone == Some("")
  {
    var o := UserStore.Public(d);
    assert "phone" !in o;
  }

  /** After a login the session user is the login payload; saving its
      untouched form changes nothing when the phone is set. */
  lemma {:induction false} LoggedInUntouchedFormIsNoOp(schema: UserStore.Schema, d: UserStore.UserDoc)
    requires d.phone.Some?
    ensures UserController.Merge(schema, d, Payload(InitialForm(Some(AuthController.LoginPayload(d))))) == d
  {
    var o := AuthController.LoginPayload(d);
    assert HasText(o, "username") && o["username"].s == d.username;
    assert HasText(o, "email") && o["email"].s == d.email;
    assert HasText(o, "bio") && o["bio"].s == d.bio;
    assert HasText(o, "profilePic") && o["profilePic"].s == d.profilePic;
    assert HasText(o, "phone") && o["phone"].s == d.phone.value;
  }

  /** After a signup the session user is the signup payload, which never has a
      phone: saving its untouched form stores an empty phone. */
  lemma {:induction false} SignedUpUntouchedFormSetsEmptyPhone(schema: UserStore.Schema, d: UserStore.UserDoc)
    ensures UserController.Merge(schema, d, Payload(InitialForm(Some(AuthController.SignupPayload(d))))).phone
         == Some("")
  {
    var o := AuthController.SignupPayload(d);
    assert "phone" !in o;
  }

  /** Clearing the picture field keeps the old picture, while clearing the bio
      empties it: the server treats the two empty values differently. */
  lemma ClearedFieldsDiffer(schema: UserStore.Schema, d: UserStore.UserDoc, f: ProfileForm)
    requires f.profilePic == "" && f.bio == ""
    ensures UserController.Merge(schema, d, Payload(f)).profilePic == d.profilePic
    ensures UserController.Merge(schema, d, Payload(f)).bio == ""
  {
  }

  /** A save the server accepts reaches the session: every field of the
      answer lands in the session user, so the user carries the caller's id,
      the bio and phone exactly as typed, and the typed username, e-mail and
      picture whenever they are not empty. */
  lemma {:induction false} SavedProfileReachesSession(schema: UserStore.Schema, store: UserStore.Store,
      caller: UserStore.Id, f: ProfileForm, c: Client)
    requires c.auth.user.Some?
    requires UserController.UpdateProfile(schema, store, caller, Payload(f), true).0.Success?
    ensures var reply := UserController.UpdateProfile(schema, store, caller, Payload(f), true).0;
      var u := HandleSubmit(c, Unwrap(reply)).0.auth.user.value;
      && (forall k :: k in reply.payload ==> k in u && u[k] == reply.payload[k])
      && "id" in u && u["id"] == JNum(caller)
      && "bio" in u && u["bio"] == JStr(f.bio)
      && "phone" in u && u["phone"] == JStr(f.phone)
      && (f.username != "" ==> "username" in u && u["username"] == JStr(f.username))
      && (f.email != "" ==> "email" in u && u["email"] == JStr(f.email))
      && (f.profilePic != "" ==> "profilePic" in u && u["profilePic"] == JStr(f.profilePic))
  {
    var i :| UserStore.IsFirstWithId(store, caller, i) by {
      var k := UserStore.IndexOf(store, caller);
      assert UserStore.IsFirstWithId(store, caller, k.value);
    }
    var m := UserController.Merge(schema, store[i], Payload(f));
    UserController.ProfilePayloadIsPublic(m);
    UserStore.PublicFields(m);
  }
}

=== FILE: signup_page.dfy ===
/** The signup page's submit handler: the client-side checks, the request
    body it sends, and what it does with the answer. The answer is a
    parameter: it is what the server would return for the body sent. */
module SignupPage {
  import opened Common
  import opened Json
  import opened AuthSlice
  import opened ApiSlice
  import Routes

  datatype SignupForm = SignupForm(username: string, email: string, password: string, confirmPassword: string)

  /** The fields of a signup answer the page uses. */
  datatype Credentials = Credentials(user: Obj, token: string)

  /** The page after a submit: the session, the error line, the body sent (if
      any) and the route navigated to (if any). */
  datatype Submitted = Submitted(
    client: Client,
    error: string,
    sent: Option<Routes.SignupBody>,
    navigate: Option<string>)

  const PasswordMismatch := "Passwords do not match"
  const PasswordTooShort := "Password must be at least 6 characters"
  const SignupFallback := "Signup failed. Please try again."
  const MinPassword := 6

  /** An authenticated visitor is sent on to the chat. */
  function Redirect(a: AuthState): (r: Option<string>)
    ensures r.Some? <==> a.isAuthenticated
    ensures r.Some? ==> r.value == "/chat"
  {
    if a.isAuthenticated then Some("/chat") else None
  }

  /** The checks made before anything is sent, in order. The length is the
      page's string length, which counts UTF-16 code units. */
  function FormError(f: SignupForm): (r: Option<string>)
    ensures r.None? <==> f.password == f.confirmPassword && Utf16Length(f.password) >= MinPassword
    ensures f.password != f.confirmPassword ==> r == Some(PasswordMismatch)
    ensures f.password == f.confirmPassword && Utf16Length(f.password) < MinPassword ==> r == Some(PasswordTooShort)
  {
    if f.password != f.confirmPassword then Some(PasswordMismatch)
    else if Utf16Length(f.password) < MinPassword then Some(PasswordTooShort)
    else None
  }

  /** `handleSubmit`. `answer` is the unwrapped server answer to the body, used
      only when a body is sent. */
  function HandleSubmit(c: Client, f: SignupForm, answer: Unwrapped<Credentials>): (r: Submitted)
    // A failed check: its message, nothing sent, nothing else changes.
    ensures FormError(f).Some? ==> r == Submitted(c, FormError(f).value, None, None)
    // Otherwise the three fields are sent; the confirmation stays on the page.
    ensures FormError(f).None? ==> r.sent == Some(Routes.SignupBody(f.username, f.email, f.password))
    // A successful answer stores the session and moves on to the contacts.
    ensures FormError(f).None? && answer.Fulfilled? && answer.body.success ==>
      && r.client == SetCredentials(c, answer.body.payload.user, answer.body.payload.token)
      && r.navigate == Some("/contacts") && r.error == ""
    // Any other answer leaves the session alone; a rejection always shows a message.
    ensures !(answer.Fulfilled? && answer.body.success) ==> r.client == c && r.navigate.None?
    ensures FormError(f).None? && answer.Rejected? ==>
      r.error == OrElse(answer.message, SignupFallback) && r.error != ""
    // An answer not flagged as a success leaves the cleared error line empty.
    ensures FormError(f).None? && answer.Fulfilled? && !answer.body.success ==> r.error == ""
    ensures Valid(c) ==> Valid(r.client)
  {
    match FormError(f)
    case Some(e) => Submitted(c, e, None, None)
    case None =>
      var body := Routes.SignupBody(f.username, f.email, f.password);
      match answer
      case Fulfilled(b) =>
        if b.success then Submitted(SetCredentials(c, b.payload.user, b.payload.token), "", Some(body), Some("/contacts"))
        else Submitted(c, "", Some(body), None)
      case Rejected(m) => Submitted(c, OrElse(m, SignupFallback), Some(body), None)
  }

  /** After a successful signup the page asks for `/contacts`, but the session
      is now authenticated, so the page's redirect then sends it on to `/chat`. */
  lemma SignupEndsInChat(c: Client, f: SignupForm, answer: Unwrapped<Credentials>)
    requires FormError(f).None? && answer.Fulfilled? && answer.body.success
    ensures var r := HandleSubmit(c, f, answer);
      r.navigate == Some("/contacts") && Redirect(r.client.auth) == Some("/chat")
  {
  }

  /** The page's password check and the server's length rule agree in one
      direction always: a password the page refuses as short would fail the
      server's rule too, since the server never counts more than the page.
      In the other direction they agree on passwords of characters from the
      Basic Multilingual Plane other than the presentation selectors: such a
      body, once sent, passes the server's length rule. */
  lemma {:induction false} PageAgreesWithServerOnLength(rules: Routes.EmailRules, c: Client, f: SignupForm,
                                                         answer: Unwrapped<Credentials>)
    ensures FormError(f) == Some(PasswordTooShort) ==>
      Routes.PasswordLength in Routes.SignupViolations(rules, Routes.SignupBody(f.username, f.email, f.password))
    ensures (forall i :: 0 <= i < |f.password| ==> Utf16Width(f.password[i]) == 1
                                                   && !IsPresentationSelector(f.password[i])) ==>
      HandleSubmit(c, f, answer).sent.Some? ==>
      Routes.PasswordLength !in Routes.SignupViolations(rules, HandleSubmit(c, f, answer).sent.value)
  {
    ValidatorCountsNoMore(f.password);
  }

  /** Three characters outside the Basic Multilingual Plane: six code units for
      the page, three characters for the server's rule. */
  const Astral := "\U{1F600}\U{1F600}\U{1F600}"

  /** The page sends a body whose password the server then refuses as short. */
  lemma PageMaySendWhatServerRefuses(rules: Routes.EmailRules, c: Client, username: string, email: string,
                                     answer: Unwrapped<Credentials>)
    ensures FormError(SignupForm(username, email, Astral, Astral)).None?
    ensures HandleSubmit(c, SignupForm(username, email, Astral, Astral), answer).sent
         == Some(Routes.SignupBody(username, email, Astral))
    ensures Routes.PasswordLength in Routes.SignupViolations(rules, Routes.SignupBody(username, email, Astral))
  {
    assert Utf16Length(Astral) == 6 by {
      assert Astral[1..][1..][1..] == [];
    }
    assert ValidatorLength(Astral) == 3 by {
      assert Astral[1..][1..][1..] == [];
    }
  }
}

=== FILE: user_controller.dfy ===
/** The user endpoints behind the access guard: the contact list, lookup by
    id, the caller's profile update and the user search. `caller` is the id
    the guard resolved. */
module UserController {
  import opened Common
  import opened Json
  import opened Http
  import opened UserStore

  /** The body of the list and search responses. */
  datatype UserList = UserList(count: nat, users: seq<Obj>)

  const UserNotFound := "User not found"
  const SearchTermRequired := "Search term is required"
  const GenericServerError := "Server error"
  const SearchLimit := 20

  /** The password-free view of each document, in order. */
  function PublicAll(docs: seq<UserDoc>): (r: seq<Obj>)
    ensures |r| == |docs|
    ensures forall i :: 0 <= i < |docs| ==> r[i] == Public(docs[i])
  {
    seq(|docs|, i requires 0 <= i < |docs| => Public(docs[i]))
  }

  /** A list response whose count is the length of the list. */
  function Listed(docs: seq<UserDoc>): (r: Reply<UserList>)
    ensures r.Success? && r.status == 200
    ensures r.payload.count == |r.payload.users| == |docs|
    ensures forall i :: 0 <= i < |docs| ==> r.payload.users[i] == Public(docs[i])
  {
    var users := PublicAll(docs);
    Success(200, None, UserList(|users|, users))
  }

  // ---------------------------------------------------------------------------
  // The contact list: everybody but the caller, by username

  predicate SortedByName(s: seq<UserDoc>) {
    forall i, j :: 0 <= i < j < |s| ==> StrLeq(s[i].username, s[j].username)
  }

  lemma {:induction false} BelowSortedHead(d: UserDoc, xs: seq<UserDoc>)
    requires SortedByName(xs) && xs != [] && StrLeq(d.username, xs[0].username)
    ensures forall j :: 0 <= j < |xs| ==> StrLeq(d.username, xs[j].username)
  {
    forall j | 0 <= j < |xs|
      ensures StrLeq(d.username, xs[j].username)
    {
      if j > 0 {
        StrLeqTransitive(d.username, xs[0].username, xs[j].username);
      }
    }
  }

  /** Putting the head back in front of the sorted insertion into the tail
      keeps the list sorted, when `d` does not precede the head. */
  lemma {:induction false} HeadBeforeInsertion(d: UserDoc, xs: seq<UserDoc>, rest: seq<UserDoc>)
    requires SortedByName(xs) && xs != [] && !StrLeq(d.username, xs[0].username)
    requires SortedByName(rest) && multiset(rest) == multiset(xs[1..]) + multiset{d}
    ensures SortedByName([xs[0]] + rest)
    ensures multiset([xs[0]] + rest) == multiset(xs) + multiset{d}
  {
    StrLeqTotal(d.username, xs[0].username);
    var r := [xs[0]] + rest;
    forall i, j | 0 <= i < j < |r|
      ensures StrLeq(r[i].username, r[j].username)
    {
      if i == 0 {
        var y := rest[j - 1];
        assert y in multiset(rest);
        if y != d {
          assert y in multiset(xs[1..]);
          var k :| 0 <= k < |xs[1..]| && xs[1..][k] == y;
          assert xs[k + 1] == y;
        }
      } else {
        assert r[i] == rest[i - 1] && r[j] == rest[j - 1];
      }
    }
    assert xs == [xs[0]] + xs[1..];
  }

  /** Insert `d` into a list sorted by username, before the first entry it does not follow. */
  function Insert(d: UserDoc, xs: seq<UserDoc>): (r: seq<UserDoc>)
    requires SortedByName(xs)
    ensures SortedByName(r)
    ensures multiset(r) == multiset(xs) + multiset{d}
    decreases |xs|
  {
    if xs == [] then [d]
    else if StrLeq(d.username, xs[0].username) then
      BelowSortedHead(d, xs);
      [d] + xs
    else
      var rest := Insert(d, xs[1..]);
      HeadBeforeInsertion(d, xs, rest);
      [xs[0]] + rest
  }

  /** The documents ordered by username: a sorted permutation. */
  function SortByName(xs: seq<UserDoc>): (r: seq<UserDoc>)
    ensures SortedByName(r)
    ensures multiset(r) == multiset(xs)
  {
    if xs == [] then []
    else
      assert xs == [xs[0]] + xs[1..];
      Insert(xs[0], SortByName(xs[1..]))
  }

  /** The test that keeps everybody but the caller. */
  function NotCaller(caller: Id): UserDoc -> bool {
    (d: UserDoc) => d.id != caller
  }

  /** The documents the contact list shows: every document but the caller's,
      each exactly as often as it is stored, sorted by username. */

  function Contacts(store: Store, caller: Id): (docs: seq<UserDoc>)
    ensures SortedByName(docs)
    ensures forall d :: d in docs <==> d in store && d.id != caller
    ensures forall d :: multiset(docs)[d] == if d.id != caller then multiset(store)[d] else 0
  {
    var others := Filter(store, NotCaller(caller));
    forall d ensures multiset(others)[d] == if d.id != caller then multiset(store)[d] else 0 {
      FilterCount(store, NotCaller(caller), d);
    }
    SortByName(others)
  }

  function GetAllUsers(store: Store, caller: Id): (r: Reply<UserList>)
    ensures r.Success? && r.status == 200
    ensures r.payload.count == |r.payload.users| == |Contacts(store, caller)|
    ensures forall i :: 0 <= i < |r.payload.users| ==>
      r.payload.users[i] == Public(Contacts(store, caller)[i])
  {
    Listed(Contacts(store, caller))
  }

  /** With unique ids, the list holds every other user once and never the caller. */
  lemma {:induction false} ContactsAreEveryoneElse(store: Store, caller: Id)
    requires UniqueIds(store)
    requires exists i :: 0 <= i < |store| && store[i].id == caller
    ensures |Contacts(store, caller)| == |store| - 1
  {
    var i :| 0 <= i < |store| && store[i].id == caller;
    FilterDropsOne(store, NotCaller(caller), i);
    var others := Filter(store, NotCaller(caller));
    assert |multiset(SortByName(others))| == |multiset(others)|;
  }

  // ---------------------------------------------------------------------------
  // Lookup by id

  /** `GET /users/:id`. `id` is `None` when the path segment is not a well-formed
      id, which the store rejects with an error. */
  function GetUserById(store: Store, id: Option<Id>): (r: Reply<Obj>)
    ensures id.None? ==> r == Failure(ServerError, GenericServerError, [])
    ensures id.Some? ==>
      (r == Failure(NotFound, UserNotFound, []) <==> forall i :: 0 <= i < |store| ==> store[i].id != id.value)
    // The first document with the id is the one returned, public fields only.
    ensures id.Some? ==> forall i :: IsFirstWithId(store, id.value, i) ==> r == Success(200, None, Public(store[i]))
  {
    match id
    case None => Failure(ServerError, GenericServerError, [])
    case Some(k) =>
      match FindById(store, k)
      case None => Failure(NotFound, UserNotFound, [])
      case Some(d) => Success(200, None, Public(d))
  }

  // ---------------------------------------------------------------------------
  // Profile update

  /** The update body; `None` is a field the client left undefined. */
  datatype ProfileBody = ProfileBody(
    username: Option<string>,
    email: Option<string>,
    bio: Option<string>,
    phone: Option<string>,
    profilePic: Option<string>,
    password: Option<string>)

  const NoChanges := ProfileBody(None, None, None, None, None, None)

  /** `body.f || old.f`: a missing or empty value keeps the old one. */
  function Keep(v: Option<string>, current: string): (r: string)
    ensures v.Some? && Truthy(v.value) ==> r == v.value
    ensures v.None? || !Truthy(v.value) ==> r == current
  {
    OrElse(v, current)
  }

  /** The body carries a non-empty value. */
  predicate Given(v: Option<string>) {
    v.Some? && Truthy(v.value)
  }

  /** The document after the body's fields are applied. Username, e-mail and
      picture ignore empty values; bio and phone take any defined value, the
      empty string included; a non-empty password is stored hashed. */
  function Merge(schema: Schema, d: UserDoc, b: ProfileBody): (m: UserDoc)
    ensures m.id == d.id && m.createdAt == d.createdAt
    ensures m.isOnline == d.isOnline && m.lastSeen == d.lastSeen && m.socketId == d.socketId
    ensures Given(b.username) ==> m.username == b.username.value
    ensures !Given(b.username) ==> m.username == d.username
    ensures Given(b.email) ==> m.email == b.email.value
    ensures !Given(b.email) ==> m.email == d.email
    ensures Given(b.profilePic) ==> m.profilePic == b.profilePic.value
    ensures !Given(b.profilePic) ==> m.profilePic == d.profilePic
    ensures b.bio.Some? ==> m.bio == b.bio.value
    ensures b.bio.None? ==> m.bio == d.bio
    ensures b.phone.Some? ==> m.phone == b.phone
    ensures b.phone.None? ==> m.phone == d.phone
    ensures Given(b.password) ==> m.password == schema.hash(b.password.value)
    ensures !Given(b.password) ==> m.password == d.password
  {
    d.(username := Keep(b.username, d.username),
       email := Keep(b.email, d.email),
       bio := b.bio.GetOr(d.bio),
       phone := if b.phone.Some? then b.phone else d.phone,
       profilePic := Keep(b.profilePic, d.profilePic),
       password := if Given(b.password) then schema.hash(b.password.value) else d.password)
  }

  /** An empty body changes nothing. */
  lemma NoChangesKeepsDoc(schema: Schema, d: UserDoc)
    ensures Merge(schema, d, NoChanges) == d
  {
  }

  /** Sending the same update twice is sending it once. */
  lemma {:induction false} MergeIdempotent(schema: Schema, d: UserDoc, b: ProfileBody)
    ensures Merge(schema, Merge(schema, d, b), b) == Merge(schema, d, b)
  {
    var m := Merge(schema, d, b);
    var m2 := Merge(schema, m, b);
    assert m2.username == m.username;
    assert m2.email == m.email;
    assert m2.profilePic == m.profilePic;
  }

  /** The profile fields the update answers with, without the password. */
  function ProfilePayload(d: UserDoc): (o: Obj)
    ensures o.Keys == {"id", "username", "email", "profilePic", "bio"}
                      + (if d.phone.Some? then {"phone"} else {})
    ensures "password" !in o
    ensures o["id"] == JNum(d.id) && o["username"] == JStr(d.username) && o["email"] == JStr(d.email)
  {
    map["id" := JNum(d.id), "username" := JStr(d.username), "email" := JStr(d.email),
        "profilePic" := JStr(d.profilePic), "bio" := JStr(d.bio)]
    + (match d.phone case Some(p) => map["phone" := JStr(p)] case None => map[])
  }

  /** Apart from `id`, which renames `_id`, every field the update answers
      with is the saved document's own public value. */
  lemma ProfilePayloadIsPublic(d: UserDoc)
    ensures forall k :: k in ProfilePayload(d) && k != "id" ==>
      k in Public(d) && ProfilePayload(d)[k] == Public(d)[k]
    ensures Public(d)["_id"] == ProfilePayload(d)["id"]
  {
    PublicFields(d);
    var o := ProfilePayload(d);
    forall k | k in o && k != "id"
      ensures k in Public(d) && o[k] == Public(d)[k]
    {
      if k == "phone" {
        assert d.phone.Some?;
      }
    }
  }

  /** The unique indexes on username and e-mail refuse `m` at position `i`
      when another document already holds either value. */
  predicate Taken(store: Store, i: int, m: UserDoc) {
    exists j :: 0 <= j < |store| && j != i && (store[j].username == m.username || store[j].email == m.email)
  }

  /** The save of `m` over position `i`: refused by the unique indexes or
      failing for an outside reason (`storeOk` false), else written in place. */
  function Save(store: Store, i: nat, m: UserDoc, storeOk: bool): (r: Option<Store>)
    requires i < |store|
    ensures r.Some? <==> storeOk && !Taken(store, i, m)
    ensures r.Some? ==> r.value == store[i := m]
    ensures r.Some? && m.id == store[i].id && UniqueIds(store) ==> UniqueIds(r.value)
    ensures r.Some? && UniqueNames(store) ==> UniqueNames(r.value)
  {
    if !storeOk || Taken(store, i, m) then None else Some(store[i := m])
  }

  /** `PUT /users/profile` on the caller's own document. `storeOk` is false when
      the save fails for a reason outside the model. */
  function UpdateProfile(schema: Schema, store: Store, caller: Id, b: ProfileBody, storeOk: bool)
    : (r: (Reply<Obj>, Store))
    ensures r.0.Failure? ==> r.1 == store
    ensures (forall i :: 0 <= i < |store| ==> store[i].id != caller) ==>
      r.0 == Failure(NotFound, UserNotFound, [])
    // The caller's document decides: refused by the unique indexes or a failed
    // save gives a server error; otherwise that document alone is replaced by
    // the merge and the answer describes it.
    ensures forall i :: IsFirstWithId(store, caller, i) ==>
      var m := Merge(schema, store[i], b);
      && (r.0.Success? <==> storeOk && !Taken(store, i, m))
      && (r.0.Failure? ==> r.0 == Failure(ServerError, GenericServerError, []))
      && (r.0.Success? ==> r.0.status == 200 && r.0.payload == ProfilePayload(m) && r.1 == store[i := m])
    ensures UniqueIds(store) ==> UniqueIds(r.1)
    ensures UniqueNames(store) ==> UniqueNames(r.1)
  {
    match IndexOf(store, caller)
    case None => (Failure(NotFound, UserNotFound, []), store)
    case Some(i) =>
      assert forall k :: IsFirstWithId(store, caller, k) ==> k == i;
      var m := Merge(schema, store[i], b);
      match Save(store, i, m, storeOk)
      case None => (Failure(ServerError, GenericServerError, []), store)
      case Some(saved) => (Success(200, Some("Profile updated successfully"), ProfilePayload(m)), saved)
  }

  /** Re-sending one's own unchanged profile is accepted and changes nothing. */
  lemma {:induction false} UnchangedProfileAccepted(schema: Schema, store: Store, i: int)
    requires UniqueIds(store) && UniqueNames(store) && 0 <= i < |store|
    ensures var r := UpdateProfile(schema, store, store[i].id, NoChanges, true);
      r.0.Success? && r.1 == store
  {
    FoundIsOnly(store, store[i].id, i);
    assert IsFirstWithId(store, store[i].id, i);
    NoChangesKeepsDoc(schema, store[i]);
    assert !Taken(store, i, store[i]);
  }

  // ---------------------------------------------------------------------------
  // Search

  /** The case-insensitive match on username or e-mail. */
  predicate Matches(d: UserDoc, q: string) {
    Contains(Lower(d.username), Lower(q)) || Contains(Lower(d.email), Lower(q))
  }

  /** Every other document that matches, in store order. */
  function Hits(store: Store, caller: Id, q: string): (r: seq<UserDoc>)
    ensures forall d :: d in r <==> d in store && d.id != caller && Matches(d, q)
  {
    Filter(store, (d: UserDoc) => d.id != caller && Matches(d, q))
  }

  /** Hits keep store order: a document added at the end of the store is a
      hit, after all earlier hits, exactly when it is another user that matches. */
  lemma {:induction false} HitsSnoc(store: Store, caller: Id, q: string, d: UserDoc)
    ensures Hits(store + [d], caller, q)
         == Hits(store, caller, q) + (if d.id != caller && Matches(d, q) then [d] else [])
  {
    FilterSnoc(store, d, (d: UserDoc) => d.id != caller && Matches(d, q));
  }

  /** `GET /users/search?q=`: `q` is `None` when the parameter is absent. */
  function SearchUsers(store: Store, caller: Id, q: Option<string>): (r: Reply<UserList>)
    ensures r.Failure? <==> q.None? || q.value == ""
    ensures r.Failure? ==> r == Failure(BadRequest, SearchTermRequired, [])
    ensures r.Success? ==>
      var hits := Hits(store, caller, q.value);
      && r.status == 200
      && r.payload.count == |r.payload.users| <= SearchLimit
      && |r.payload.users| == (if |hits| <= SearchLimit then |hits| else SearchLimit)
      && forall i :: 0 <= i < |r.payload.users| ==> r.payload.users[i] == Public(hits[i])
  {
    if q.None? || q.value == "" then Failure(BadRequest, SearchTermRequired, [])
    else
      var hits := Hits(store, caller, q.value);
      Listed(if |hits| <= SearchLimit then hits else hits[..SearchLimit])
  }

  /** With at most twenty hits the answer lists every matching other user. */
  lemma {:induction false} SearchIsComplete(store: Store, caller: Id, q: string, d: UserDoc)
    requires q != "" && |Hits(store, caller, q)| <= SearchLimit
    requires d in store && d.id != caller && Matches(d, q)
    ensures Public(d) in SearchUsers(store, caller, Some(q)).payload.users
  {
    var hits := Hits(store, caller, q);
    var k :| 0 <= k < |hits| && hits[k] == d;
    assert SearchUsers(store, caller, Some(q)).payload.users[k] == Public(d);
  }

  /** Upper or lower case in the term makes no difference. */
  lemma {:induction false} SearchIgnoresCase(store: Store, caller: Id, q: string)
    ensures SearchUsers(store, caller, Some(Lower(q))) == SearchUsers(store, caller, Some(q))
  {
    LowerIdempotent(q);
    assert forall d: UserDoc :: Matches(d, Lower(q)) == Matches(d, q);
    assert (Lower(q) == "") == (q == "");
    FilterAgrees(store, (d: UserDoc) => d.id != caller && Matches(d, Lower(q)),
                        (d: UserDoc) => d.id != caller && Matches(d, q));
  }
}

=== FILE: user_slice.dfy ===
/** The client's `user` reducer: the fetched user list and the user picked
    for a chat. */
module UserSlice {
  import opened Common
  import opened Json

  datatype UserState = UserState(allUsers: seq<Obj>, selectedUser: Option<Obj>, loading: bool)

  const InitialState := UserState([], None, false)

  /** `a.id === b.id`; two objects without an `id` compare equal (undefined === undefined). */
  predicate SameId(a: Obj, b: Obj) {
    Get(a, "id") == Get(b, "id")
  }

  /** Position `i` holds the first element carrying `u`'s id. */
  predicate IsFirstMatch(xs: seq<Obj>, u: Obj, i: int) {
    0 <= i < |xs| && SameId(xs[i], u) && forall j :: 0 <= j < i ==> !SameId(xs[j], u)
  }

  function SetAllUsers(s: UserState, users: seq<Obj>): (r: UserState)
    ensures r.allUsers == users
    ensures r.selectedUser == s.selectedUser && r.loading == s.loading
  {
    s.(allUsers := users)
  }

  function SetSelectedUser(s: UserState, user: Option<Obj>): (r: UserState)
    ensures r.selectedUser == user
    ensures r.allUsers == s.allUsers && r.loading == s.loading
  {
    s.(selectedUser := user)
  }

  function SetLoading(s: UserState, on: bool): (r: UserState)
    ensures r.loading == on
    ensures r.allUsers == s.allUsers && r.selectedUser == s.selectedUser
  {
    s.(loading := on)
  }

  /** Replace the first listed user with the payload's id by the payload. */
  function UpdateUserInList(s: UserState, u: Obj): (r: UserState)
    ensures |r.allUsers| == |s.allUsers|
    ensures forall i :: 0 <= i < |s.allUsers| ==>
      r.allUsers[i] == if IsFirstMatch(s.allUsers, u, i) then u else s.allUsers[i]
    ensures r.selectedUser == s.selectedUser && r.loading == s.loading
  {
    match FirstWhere(s.allUsers, (x: Obj) => SameId(x, u))
    case None => s
    case Some(i) => s.(allUsers := s.allUsers[i := u])
  }

  /** Without a listed user carrying the payload's id, the list is untouched. */
  lemma NoMatchNoChange(s: UserState, u: Obj)
    requires forall i :: 0 <= i < |s.allUsers| ==> !SameId(s.allUsers[i], u)
    ensures UpdateUserInList(s, u) == s
  {
    var r := UpdateUserInList(s, u);
    assert r.allUsers == s.allUsers;
  }

  /** At most one position changes. */
  lemma {:induction false} AtMostOneReplaced(s: UserState, u: Obj, i: int, j: int)
    requires 0 <= i < j < |s.allUsers|
    ensures UpdateUserInList(s, u).allUsers[i] == s.allUsers[i]
         || UpdateUserInList(s, u).allUsers[j] == s.allUsers[j]
  {
    if IsFirstMatch(s.allUsers, u, i) {
      assert !IsFirstMatch(s.allUsers, u, j);
    }
  }

  /** Applying the same update twice is applying it once. */
  lemma {:induction false} UpdateIdempotent(s: UserState, u: Obj)
    ensures UpdateUserInList(UpdateUserInList(s, u), u) == UpdateUserInList(s, u)
  {
    var r1 := UpdateUserInList(s, u);
    var r2 := UpdateUserInList(r1, u);
    forall i | 0 <= i < |s.allUsers|
      ensures r2.allUsers[i] == r1.allUsers[i]
    {
      if IsFirstMatch(r1.allUsers, u, i) {
        assert IsFirstMatch(s.allUsers, u, i);
      }
    }
    assert r2.allUsers == r1.allUsers;
  }
}

=== FILE: user_store.dfy ===
/** The server's user collection, abstracted as a sequence of documents in
    insertion order, together with the parts of the user model the
    controllers rely on but whose code is not part of this model: password
    hashing, password comparison, field defaults and token signing. */
module UserStore {
  import opened Common
  import opened Json

  type Id = nat
  type Time = nat

  /** A signed token naming a user id. Signing is injective and otherwise opaque;
      expiry and verification are not part of this model. */
  datatype Token = Sign(subject: Id)

  /** The user model's hooks, taken as given: how a password is hashed before
      it is stored, how a candidate password is checked against a stored hash,
      and the defaults a new document receives. */
  datatype Schema = Schema(
    hash: string -> string,
    matches: (string, string) -> bool,
    defaultProfilePic: string,
    defaultBio: string)

  datatype UserDoc = UserDoc(
    id: Id,
    username: string,
    email: string,
    password: string,          // the stored hash
    profilePic: string,
    bio: string,
    phone: Option<string>,
    isOnline: bool,
    lastSeen: Time,
    socketId: Option<string>,
    createdAt: Time)

  type Store = seq<UserDoc>

  /** The document as JSON, password hash included; an unset phone is omitted
      and a cleared socket id is `null`. */
  function ToObj(d: UserDoc): Obj {
    map[
      "_id" := JNum(d.id),
      "username" := JStr(d.username),
      "email" := JStr(d.email),
      "password" := JStr(d.password),
      "profilePic" := JStr(d.profilePic),
      "bio" := JStr(d.bio),
      "isOnline" := JBool(d.isOnline),
      "lastSeen" := JNum(d.lastSeen),
      "socketId" := (match d.socketId case Some(s) => JStr(s) case None => JNull),
      "createdAt" := JNum(d.createdAt)
    ] + (match d.phone case Some(p) => map["phone" := JStr(p)] case None => map[])
  }

  /** `select("-password")`: every field of the document but the password. */
  function Public(d: UserDoc): (o: Obj)
    ensures "password" !in o
    ensures o.Keys == ToObj(d).Keys - {"password"}
    ensures forall k :: k in o ==> o[k] == ToObj(d)[k]
    ensures HasText(o, "username") && o["username"].s == d.username
    ensures HasText(o, "email") && o["email"].s == d.email
  {
    ToObj(d) - {"password"}
  }

  /** The public view field by field. */
  lemma PublicFields(d: UserDoc)
    ensures "_id" in Public(d) && Public(d)["_id"] == JNum(d.id)
    ensures "profilePic" in Public(d) && Public(d)["profilePic"] == JStr(d.profilePic)
    ensures "bio" in Public(d) && Public(d)["bio"] == JStr(d.bio)
    ensures "isOnline" in Public(d) && Public(d)["isOnline"] == JBool(d.isOnline)
    ensures "lastSeen" in Public(d) && Public(d)["lastSeen"] == JNum(d.lastSeen)
    ensures "createdAt" in Public(d) && Public(d)["createdAt"] == JNum(d.createdAt)
    ensures d.phone.Some? ==> "phone" in Public(d) && Public(d)["phone"] == JStr(d.phone.value)
    ensures d.phone.None? ==> "phone" !in Public(d)
  {
  }

  // ---------------------------------------------------------------------------
  // Lookups

  /** The first document carrying `id` sits at `i`. */
  predicate IsFirstWithId(store: Store, id: Id, i: int) {
    0 <= i < |store| && store[i].id == id && forall j :: 0 <= j < i ==> store[j].id != id
  }

  /** `findById`: the position of the first document with this id. */
  function IndexOf(store: Store, id: Id): (r: Option<nat>)
    ensures r.Some? ==> IsFirstWithId(store, id, r.value)
    ensures r.None? <==> forall i :: 0 <= i < |store| ==> store[i].id != id
  {
    FirstWhere(store, (d: UserDoc) => d.id == id)
  }

  function FindById(store: Store, id: Id): (r: Option<UserDoc>)
    ensures r.Some? ==> r.value in store && r.value.id == id
    ensures r.None? <==> forall i :: 0 <= i < |store| ==> store[i].id != id
    ensures forall i :: IsFirstWithId(store, id, i) ==> r == Some(store[i])
  {
    match IndexOf(store, id)
    case Some(i) =>
      assert forall j :: IsFirstWithId(store, id, j) ==> j == i;
      Some(store[i])
    case None => None
  }

  // ---------------------------------------------------------------------------
  // Identity

  /** No two documents share an id. */
  predicate UniqueIds(store: Store) {
    forall i, j :: 0 <= i < j < |store| ==> store[i].id != store[j].id
  }

  /** No two documents share a username, and none share an email. */
  predicate UniqueNames(store: Store) {
    forall i, j :: 0 <= i < j < |store| ==>
      store[i].username != store[j].username && store[i].email != store[j].email
  }

  function MaxId(store: Store): (m: Id)
    ensures forall i :: 0 <= i < |store| ==> store[i].id <= m
  {
    if store == [] then 0
    else
      var rest := MaxId(store[1..]);
      if store[0].id > rest then store[0].id else rest
  }

  /** A new document id, distinct from every id already stored. */
  function FreshId(store: Store): (id: Id)
    ensures forall i :: 0 <= i < |store| ==> store[i].id != id
  {
    MaxId(store) + 1
  }

  /** With unique ids, the document found by id is the only one with that id. */
  lemma {:induction false} FoundIsOnly(store: Store, id: Id, i: int)
    requires UniqueIds(store)
    requires 0 <= i < |store| && store[i].id == id
    ensures IndexOf(store, id) == Some(i)
  {
    var r := IndexOf(store, id);
    assert r.Some?;
  }
}
